=== FILE: README.md ===
# Device-registry API: validation middleware, credential rules and device assignment rules

This project models, in Dafny, the three pieces of decision logic of an
ASP.NET device-registry API (devices, their types, employees and accounts).
Everything around them (database queries, HTTP plumbing, JSON parsing,
hashing, tokens) is passed in as values.

1. **The device request-body validation middleware** (`ValidationMiddleware`).
   `Invoke` takes the middleware state, the framework's JSON codec and a
   request. It returns `Forward(request)` or `Reject(400, message)`. Only a
   POST or PUT under the `/api/device` path segment is inspected; the segment
   match ignores case. An inspected body is read to its end and rewound to
   position 0. It is then parsed and checked for presence only: each expected
   key of the device type must appear in `additionalProperties`. The first
   absent key is reported. Every exception becomes "Invalid JSON format.".
   The table of expected keys (`_rules`) is an input of type `Option<RuleTable>`.
   The constructor never assigns it, so `Construct` always leaves it `None`.
   `ConstructedRejectsTypedBodies` states the consequence: the middleware as
   built rejects every device write that names a type and carries a
   properties object. The rule catalog (`ValidationRules`) is loaded by the
   constructor. `CatalogIgnored` proves it never affects an outcome; its
   `regex` element is never evaluated, so no pattern semantics are modelled.
2. **Credential rules** (`AccountController`, `LegacyAccountController`,
   `RegisterDtoRules`, `CredentialRules`). These cover the username and
   password predicates of both controller copies and the first-failure order
   of `Register`. They also cover `UpdateAccount`, which applies no rule, and
   the data annotations on the registration body. `RegisterEndpoint` composes
   model validation of the body with the action. The annotations and the
   controller disagree in two ways. `\W` accepts '-', which the controller's
   symbol class does not. The 100-character cap exists only in the annotations.
3. **Device assignment rules** (`Devices`, `DeviceController`,
   `LegacyDeviceController`). These cover the "User may only touch a device
   assigned to their employee" check and the choice of the current holder.
   The holder is the unreturned assignment with the latest issue date; ties
   go to the earliest record, as a stable descending sort gives. They also
   cover the "Unknown" type-name fallback, the delete guard, and the
   404/403/400 order of read, create, update and delete. Each older copy is
   written out separately. A lemma proves it decides like the newer copy.
   Only the 500 body and the location prefix of a 201 may differ.

Two points about what the code does, as opposed to what its names suggest:
- The catalog's records name a device type, a precondition field and value,
  and a pattern per field, as if rule groups were chosen by type and
  precondition and fields matched against literal sets or regular
  expressions. The request path does none of this. It runs a presence-only
  check against a table that is never assigned, and it never reads the catalog.
- The controllers and the middleware read `DeviceTypeName` and `Name`, while
  the body classes declare `DeviceType`. The model uses the names the
  controllers read.

## Model

| member | source | states |
|---|---|---|
| ValidationRules.DecodeString | src/API/Middleware/ValidationRule.cs:6-8 | a string property is `null` when absent or JSON null, the string when a string, and a load failure for any other kind |
| ValidationRules.DecodeRule | src/API/Middleware/ValidationRule.cs:12-17 | a null entry stays null; an object decodes to a rule (never null), taking its `ParamName` as a string property and keeps the `regex` element exactly when present; any other kind fails the load |
| ValidationRules.DecodeRules | src/API/Middleware/ValidationRule.cs:9 | an absent `Rules` keeps the empty initialiser, null gives null, an array decodes to a list (never null) entry by entry and fails exactly when an entry fails, any other kind fails |
| ValidationRules.DecodeValidationRule | src/API/Middleware/ValidationRule.cs:4-10 | a null entry stays null; an object decodes to a record (never null) exactly when its three string properties and its rule list decode, and the record holds those values; any other kind fails |
| ValidationRules.DecodeEach | src/API/Middleware/ValidationRule.cs:9 | a list decodes entry by entry in order, keeping its length, and fails exactly when some entry fails |
| ValidationRules.LoadCatalog | src/API/Middleware/ValidationMiddleware.cs:22-24 | the catalog is the `validations` array of the document, decoded entry by entry and failing exactly when an entry fails; a non-object root, a missing member or a non-array value fails the load; a null value falls back to an empty list |
| ValidationRules.RulesDefaultToEmpty | src/API/Middleware/ValidationRule.cs:9 | a rule group without `Rules` gets an empty rule list |
| ValidationRules.PatternKindUnconstrained | src/API/Middleware/ValidationRule.cs:14-17 | a field rule keeps its parameter name, and its `regex` element is stored whatever its JSON kind |
| ValidationRules.RuleOrderKept | src/API/Middleware/ValidationRule.cs:6-9 | a rule group holds its field rules in document order, one per array entry |
| ValidationMiddleware.Construct | src/API/Middleware/ValidationMiddleware.cs:17-25 | construction succeeds exactly when the catalog loads, stores it, and leaves the expected-keys table null |
| ValidationMiddleware.Member | src/API/Middleware/ValidationMiddleware.cs:44-45 | reading a member gives a node exactly when the key is present with a non-null value |
| ValidationMiddleware.StartsWithSegments | src/API/Middleware/ValidationMiddleware.cs:32 | a path matching the prefix exactly and ending there or at a '/' is accepted; one that continues the prefix with any other character is refused |
| ValidationMiddleware.Inspect | src/API/Middleware/ValidationMiddleware.cs:41-66 | a parse failure, a non-object non-null root and a non-object `additionalProperties` all give the generic 400; a null body and a body without a type name pass; a missing-key message needs a table, a type name and a properties object |
| ValidationMiddleware.FirstMissing | src/API/Middleware/ValidationMiddleware.cs:49-57 | the result is the first expected key absent from the properties, with every earlier key present; none exactly when all are present |
| ValidationMiddleware.Invoke | src/API/Middleware/ValidationMiddleware.cs:28-71 | requests outside the gate go on untouched; a rejection is a 400 on an inspected request; a forwarded request keeps its method, path and body text, rewound to 0 when inspected |
| ValidationMiddleware.UnparseableBodyRejected | src/API/Middleware/ValidationMiddleware.cs:43-45 | an inspected body that fails to parse gets 400 "Invalid JSON format." |
| ValidationMiddleware.NonObjectRootRejected | src/API/Middleware/ValidationMiddleware.cs:44 | a non-null, non-object root makes the indexer throw, giving the generic 400 |
| ValidationMiddleware.NonObjectPropertiesRejected | src/API/Middleware/ValidationMiddleware.cs:45 | a non-null, non-object `additionalProperties` makes `AsObject` throw, giving the generic 400 |
| ValidationMiddleware.FirstMissingKeyRejected | src/API/Middleware/ValidationMiddleware.cs:47-56 | with a table entry for the type, the first absent key alone names the 400 message |
| ValidationMiddleware.AllKeysPresentForwarded | src/API/Middleware/ValidationMiddleware.cs:49-58 | with every expected key present the rewound request goes on |
| ValidationMiddleware.NothingToCheckForwarded | src/API/Middleware/ValidationMiddleware.cs:47 | a missing type name, missing properties or no table entry forwards the rewound request |
| ValidationMiddleware.NullBodyForwarded | src/API/Middleware/ValidationMiddleware.cs:43-47 | a body that is JSON `null` parses to a null node and goes on |
| ValidationMiddleware.FirstMissingSeesKeysOnly | src/API/Middleware/ValidationMiddleware.cs:51 | the first missing key depends only on which keys are present |
| ValidationMiddleware.PresenceOnly | src/API/Middleware/ValidationMiddleware.cs:51 | changing the value of a present property, to any kind, never changes the verdict |
| ValidationMiddleware.NullTableRejectsTypedBodies | src/API/Middleware/ValidationMiddleware.cs:47 | with the table null, a body with a type name and a properties object ends in the catch-all 400 |
| ValidationMiddleware.ConstructedRejectsTypedBodies | src/API/Middleware/ValidationMiddleware.cs:13-25 | the middleware as constructed rejects every such device write with "Invalid JSON format." |
| ValidationMiddleware.CatalogIgnored | src/API/Middleware/ValidationMiddleware.cs:28-71 | the outcome is the same for every loaded catalog |
| ValidationMiddleware.GateExamples | src/API/Middleware/ValidationMiddleware.cs:32-33 | the segment match ignores case, refuses `/api/devices` and refuses a different first segment such as `/api/people/1`; GET and lower-case `post` are not inspected |
| CharClass.SymbolsAreNonWord | src/API/controllers/AccountController.cs:38 | every character of the controller's symbol class is a non-word character |
| RegisterDtoRules.RequiredOk | src/DTOs/RegisterDTO.cs:7 | a required string holds exactly when it is non-null and has a character that is not white space |
| RegisterDtoRules.UsernamePatternOk | src/DTOs/RegisterDTO.cs:8 | null and empty pass; otherwise the first character is not a digit and no later character is a line feed, in both directions |
| RegisterDtoRules.PasswordLengthOk | src/DTOs/RegisterDTO.cs:12 | null passes; fewer than 12 or more than 100 characters fail |
| RegisterDtoRules.PasswordPatternOk | src/DTOs/RegisterDTO.cs:13 | null and empty pass; a line feed fails; a non-empty value passes exactly when it has each of the four classes and no line feed |
| RegisterDtoRules.IsValid | src/DTOs/RegisterDTO.cs:7-20 | a valid body has all three strings, a username not starting with a digit, and a 12 to 100 character password with a non-word character; a leading digit makes any body invalid |
| RegisterDtoRules.ValidBodyMeaning | src/DTOs/RegisterDTO.cs:5-21 | a body meeting the annotations has a username not starting with a digit, a 12 to 100 character password with each class, and a role |
| Accounts.FindRole | src/API/controllers/AccountController.cs:61 | the role found is the first one with the requested name; none exactly when no role has it |
| AccountController.IsValidUsername | src/API/controllers/AccountController.cs:30 | null and blank names are refused; an accepted name has a first character that is not a digit |
| AccountController.IsValidPassword | src/API/controllers/AccountController.cs:32-39 | the four class checks and the length bound, each a necessary condition; what the rule means beyond its parts is in `PasswordValidityKeptByAppend`, `PasswordLengthUnbounded` and `CredentialRules.HyphenOnlyPasswordSplitsTheRules` |
| AccountController.UsernameRefusedIffLeadingDigit | src/API/controllers/AccountController.cs:30 | a non-blank name is refused exactly when it starts with a digit |
| AccountController.PasswordValidityKeptByAppend | src/API/controllers/AccountController.cs:34-38 | appending characters keeps a valid password valid |
| AccountController.PasswordLengthUnbounded | src/API/controllers/AccountController.cs:34 | every length from 12 on has a valid password: there is no upper bound |
| AccountController.Register | src/API/controllers/AccountController.cs:44-84 | username, password, uniqueness, employee, role are checked in that order; each 400 holds exactly when the earlier checks pass and that one fails; the account is created exactly when all five pass, and only then is it added |
| AccountController.UpdateAccount | src/API/controllers/AccountController.cs:125-143 | a missing id is 404; any non-null username and password are stored, with no rule; nothing else changes |
| AccountController.UpdateSkipsCredentialRules | src/API/controllers/AccountController.cs:125-136 | at the level of the actions alone, a name `Register` refuses for its leading digit is stored by `UpdateAccount`; model validation stops this body before either action |
| LegacyAccountController.IsValidUsername | src/API/AccountController.cs:24 | null and blank names are refused; an accepted name does not start with a digit |
| LegacyAccountController.IsValidPassword | src/API/AccountController.cs:26-33 | an accepted password has at least 12 characters and each required class; `PredicatesAgree` shows it is the newer rule |
| LegacyAccountController.PredicatesAgree | src/API/AccountController.cs:24-33 | both predicates equal the newer copy's on every input |
| LegacyAccountController.Register | src/API/AccountController.cs:38-68 | a bad username is refused first; a null password is a bare 500; only success changes the store |
| LegacyAccountController.RegisterAgrees | src/API/AccountController.cs:40-55 | the older `Register` decides and writes like the newer one, so the check order is the same |
| LegacyAccountController.UpdateAccount | src/API/AccountController.cs:91-100 | a missing id is 404; any non-null username and password are stored |
| LegacyAccountController.UpdateAgrees | src/API/AccountController.cs:91-100 | the older `UpdateAccount` decides and writes like the newer one |
| CredentialRules.RegisterEndpoint | src/DTOs/RegisterDTO.cs:7-20 | an invalid body never reaches the action and a valid one gets exactly the action's answer; the status is 201, 400 or 500; a created account met both the annotations and the controller rules, so its password has at most 100 characters |
| CredentialRules.UpdateEndpoint | src/API/controllers/AccountController.cs:123-136 | an invalid body never reaches the action and a valid one gets exactly its answer; it succeeds exactly when the body is valid and the id exists, and then stores the name and the hash of the password |
| CredentialRules.ValidBodyPassesUsernameRule | src/DTOs/RegisterDTO.cs:7-9 | a username meeting the annotations passes the controller's username rule |
| CredentialRules.UsernameRulesCoincide | src/DTOs/RegisterDTO.cs:8 | on non-blank names without line feeds the annotation and the controller rule agree in both directions |
| CredentialRules.UsernameLineFeedOnlyRefusedByAnnotation | src/DTOs/RegisterDTO.cs:8 | a name with a later line feed passes the controller and fails the whole-value pattern |
| CredentialRules.ControllerPasswordMeetsAnnotations | src/DTOs/RegisterDTO.cs:11-14 | a controller-valid password of at most 100 characters without line feeds meets every password annotation |
| CredentialRules.HyphenOnlyPasswordSplitsTheRules | src/DTOs/RegisterDTO.cs:13 | a password whose only symbol is '-' meets the annotations and fails the controller's symbol class |
| CredentialRules.LengthCapOnlyInAnnotations | src/DTOs/RegisterDTO.cs:12 | a 101-character password passes the controller and fails the length annotation |
| CredentialRules.EndpointRefusesHyphenOnlyPassword | src/API/controllers/AccountController.cs:52-53 | through the endpoint, the hyphen-only password passes model validation and gets the controller's password message |
| CredentialRules.UpdateEndpointStoresWhatRegisterRefuses | src/API/controllers/AccountController.cs:125-136 | a body model validation accepts is refused by registration for its password yet stored, hashed, by the update endpoint |
| Devices.CheckAccess | src/API/controllers/DeviceController.cs:64-71 | only the role "User" is checked; it is allowed exactly when its account exists and that employee holds an unreturned assignment; a missing id claim throws |
| Devices.IssueGrantsAccess | src/API/controllers/DeviceController.cs:69 | an open assignment to the caller's employee grants access |
| Devices.ReturnRevokesAccess | src/API/controllers/DeviceController.cs:69 | returning the employee's only open assignment removes a "User" caller's access |
| Devices.CurrentHolder | src/API/controllers/DeviceController.cs:73-81 | the holder is unreturned, issued no earlier than any unreturned record and strictly later than the ones before it; none exactly when all are returned |
| Devices.CurrentHolderUnique | src/API/controllers/DeviceController.cs:73-81 | that description fixes a single record |
| Devices.NewIssueAndHolder | src/API/controllers/DeviceController.cs:75 | a new open record takes over only with a strictly later date; an equal date leaves the earlier holder, as a stable sort does |
| Devices.ReturnedRecordIgnored | src/API/controllers/DeviceController.cs:74 | a returned record never changes the holder |
| Devices.CurrentEmployee | src/API/controllers/DeviceController.cs:73-81 | the current employee is the employee of the current holder record, who holds an unreturned assignment; there is none exactly when every assignment is returned |
| Devices.FindTypeByName | src/API/controllers/DeviceController.cs:108 | the type found is the first one with the name; none exactly when no type has it |
| Devices.FindTypeById | src/API/controllers/DeviceController.cs:52 | the type found carries the device's type id; none exactly when no row has it |
| Devices.TypeNameOrUnknown | src/API/controllers/DeviceController.cs:86 | a device without a type is reported as "Unknown"; a device whose type row has a name is reported with that name, and any other name is a type row's name |
| Devices.DecodeProperties | src/API/controllers/DeviceController.cs:88 | it succeeds exactly when the stored text parses to null or an object; null gives an empty map, an object gives its own members, and anything else is an exception |
| DeviceController.GetDevice | src/API/controllers/DeviceController.cs:44-99 | 404 exactly when the id is missing; Forbid exactly when the ownership check denies; 500 exactly when the claim is bad or the allowed read's stored properties do not deserialise; the details are returned exactly when the device exists, access is allowed and the stored properties deserialise; they carry the fallback type name and the current holder; a "User" caller reading it holds an open assignment |
| DeviceController.CreateDevice | src/API/controllers/DeviceController.cs:101-133 | an unknown type name is 400 with nothing written; a known one always creates the device, and only the new unassigned device is added, with the named type |
| DeviceController.UpdateDevice | src/API/controllers/DeviceController.cs:135-181 | 404, then ownership (403 or a 500 on a bad claim), then the type 400, each exactly when earlier checks pass; only success writes, keeping assignments and other devices |
| DeviceController.DeleteDevice | src/API/controllers/DeviceController.cs:183-215 | 404 for a missing id; 400 exactly when any assignment record exists; otherwise only that device is removed |
| DeviceController.DeleteRefusedAfterAllReturned | src/API/controllers/DeviceController.cs:200-204 | a device with only returned assignments has no holder yet cannot be deleted |
| DeviceController.ReadAndUpdateShareAccess | src/API/controllers/DeviceController.cs:64-71 | read and update forbid exactly the same callers |
| DeviceController.ForbidBeforeTypeCheck | src/API/controllers/DeviceController.cs:152-166 | a caller without access gets 403 even when the type name is unknown |
| DeviceController.UpdateThenRead | src/API/controllers/DeviceController.cs:168-173 | after a successful update a read reports the new name, flag, type name and properties, with the same holder |
| LegacyDeviceController.GetDevice | src/API/DeviceController.cs:30-73 | a missing id is 404; a "User" caller that gets the details holds an open assignment |
| LegacyDeviceController.GetDeviceAgrees | src/API/DeviceController.cs:41-69 | the older read decides like the newer one: same 404, 403 and details |
| LegacyDeviceController.CreateDevice | src/API/DeviceController.cs:75-95 | an unknown type name is 400 with nothing written |
| LegacyDeviceController.CreateDeviceAgrees | src/API/DeviceController.cs:79-94 | the older create answers and writes like the newer one |
| LegacyDeviceController.UpdateDevice | src/API/DeviceController.cs:97-128 | a missing id is 404; only success changes the store |
| LegacyDeviceController.UpdateDeviceAgrees | src/API/DeviceController.cs:105-127 | the older update keeps the 404, 403, 400 order and writes like the newer one |
| LegacyDeviceController.DeleteDevice | src/API/DeviceController.cs:130-147 | a device is removed only when it exists and has no assignment record |
| LegacyDeviceController.DeleteDeviceAgrees | src/API/DeviceController.cs:138-146 | the older delete refuses and removes exactly like the newer one |

## Left out

- File and stream I/O. This covers reading the rules file, body buffering and
  the reader, and writing responses. The parsed rules document and the body
  text are inputs, and outcomes are values. UTF-8 decoding of the body is not
  modelled: the body is text.
- JSON parsing and serialisation. `Codec.parse`, `Codec.render` (the
  serialiser's compact text, used when a device is stored) and
  `Codec.indented` (the indented text `ToString()` gives a non-string node,
  used for the middleware's type-name lookup) are parameters, and objects are maps, so duplicate member names cannot be
  represented.
- Unicode classification. `char.IsDigit`, `\d` and `\w` are ASCII
  approximations. Case-insensitive path matching folds ASCII letters only.
  Lengths count characters rather than UTF-16 code units.
- The database. Queries are sequences and maps. Ids are assigned by the
  caller of the model, who must pick one not yet in use. Three comparisons
  are exact, although the database collation may ignore case: type names,
  the username uniqueness test (src/API/controllers/AccountController.cs:54,
  src/API/AccountController.cs:46) and the role lookup by name
  (src/API/controllers/AccountController.cs:61, src/API/AccountController.cs:53).
  Unique indexes and column lengths are not modelled: `UpdateAccount` is modelled as storing any non-null name.
  Null device or type names in request bodies are not modelled.
- Password hashing is a function parameter. Token issuance, authentication
  and role authorisation attributes are not part of this model.
- AccountController.Register: the 500 body is only the "Internal server error: "
  prefix; the exception's message that follows it is not modelled.
- AccountController.UpdateAccount: the same simplification applies to its 500 body.
- Devices.CurrentEmployee: gives the employee id only. The employee's full
  name, built from the person record, is not modelled.
- Exceptions other than those listed are not modelled. The modelled ones are:
  in the middleware, a body that does not parse, indexing a non-object node,
  `AsObject` on a non-object and the lookup in the null table (all the
  generic 400, see `ValidationMiddleware.Inspect`); in the constructor, the
  rules-document failures of `ValidationRules.LoadError`; in the account
  actions, a null password and, on update, a null username refused by the
  non-null column; in the device actions, a missing or non-integer id claim
  and stored properties that do not deserialise.
- The route table in Program.cs, and the employee, position and role
  endpoints, are plain projections and are not part of this model.
- Logging, async and cancellation.

=== FILE: account_controller.dfy ===
/** The account controller under `api/account`: the credential predicates,
    the check order of `Register`, and `UpdateAccount`, which applies no
    credential rule. */
module AccountController {
  import opened Wrappers
  import opened CharClass
  import opened Http
  import opened Accounts
  import opened RegisterDtoRules

  const UsernameMessage: string := "Username cannot start with a digit."
  const PasswordMessage: string :=
    "Password must be at least 12 characters and include uppercase, lowercase, number, and symbol."
  const DuplicateMessage: string := "Username already exists."
  const EmployeeMessage: string := "Invalid employee ID."
  const RoleMessage: string := "Invalid role."

  /** The start of every 500 body this controller writes; the exception's own
      text that follows it is not modelled. */
  const InternalErrorPrefix: string := "Internal server error: "

  const AccountLocation: string := "/api/account/"

  /** The username rule: not null, not blank, and not starting with a digit.
      The first character is read only once the value is known not to be blank. */
  function IsValidUsername(username: Option<string>): (r: bool)
    ensures r ==> username.Some? && |username.value| > 0 && !IsDigit(username.value[0])
    ensures username.None? || IsBlank(username.value) ==> !r
  {
    match username
    case None => false
    case Some(s) => !IsBlank(s) && !IsDigit(s[0])
  }

  /** The password rule: at least 12 characters, and one each of `[a-z]`,
      `[A-Z]`, `[0-9]` and the fixed symbol class. */
  function IsValidPassword(password: string): (r: bool)
    ensures r ==> |password| >= 12
    ensures r ==> HasLower(password) && HasUpper(password) && HasDigit(password) && HasSymbol(password)
  {
    |password| >= 12 && HasLower(password) && HasUpper(password) && HasDigit(password) && HasSymbol(password)
  }

  /** A non-blank username is refused exactly when it starts with a digit. */
  lemma UsernameRefusedIffLeadingDigit(s: string)
    requires !IsBlank(s)
    ensures |s| > 0
    ensures !IsValidUsername(Some(s)) <==> IsDigit(s[0])
  {
  }

  /** Each clause of the password rule is a lower bound or an existence test,
      so appending characters keeps a valid password valid. */
  lemma {:induction false} PasswordValidityKeptByAppend(p: string, q: string)
    requires IsValidPassword(p)
    ensures IsValidPassword(p + q)
  {
    var a :| 0 <= a < |p| && IsAsciiLower(p[a]);
    var b :| 0 <= b < |p| && IsAsciiUpper(p[b]);
    var c :| 0 <= c < |p| && IsDigit(p[c]);
    var d :| 0 <= d < |p| && p[d] in Symbols;
    assert (p + q)[a] == p[a] && (p + q)[b] == p[b] && (p + q)[c] == p[c] && (p + q)[d] == p[d];
  }

  /** The rule has no upper bound: every length from 12 on has a valid password. */
  lemma PasswordLengthUnbounded(n: nat)
    requires n >= 12
    ensures |"aA1!" + Repeat('a', n - 4)| == n
    ensures IsValidPassword("aA1!" + Repeat('a', n - 4))
  {
    var p := "aA1!" + Repeat('a', n - 4);
    assert IsAsciiLower(p[0]) && IsAsciiUpper(p[1]) && IsDigit(p[2]) && p[3] in Symbols;
  }

  /** `Register`: username rule, password rule, username uniqueness, employee,
      role; the first failing check alone decides the 400. A `null` password
      throws inside the try block and becomes a 500. Only a request passing
      every check adds an account, under the id the database assigns. */
  function Register(dto: RegisterDto, store: AccountStore, hash: string -> string, newId: int)
    : (r: (Response<()>, AccountStore))
    requires newId !in store.accounts
    ensures r.0 == BadRequest(UsernameMessage) <==> !IsValidUsername(dto.username)
    ensures r.0 == BadRequest(PasswordMessage) <==>
              IsValidUsername(dto.username) && dto.password.Some? && !IsValidPassword(dto.password.value)
    ensures r.0.ServerError? <==> IsValidUsername(dto.username) && dto.password.None?
    ensures r.0 == BadRequest(DuplicateMessage) <==>
              IsValidUsername(dto.username) && dto.password.Some? && IsValidPassword(dto.password.value)
              && UsernameTaken(store, dto.username.value)
    ensures r.0 == BadRequest(EmployeeMessage) <==>
              IsValidUsername(dto.username) && dto.password.Some? && IsValidPassword(dto.password.value)
              && !UsernameTaken(store, dto.username.value) && dto.employeeId !in store.employees
    ensures r.0 == BadRequest(RoleMessage) <==>
              IsValidUsername(dto.username) && dto.password.Some? && IsValidPassword(dto.password.value)
              && !UsernameTaken(store, dto.username.value) && dto.employeeId in store.employees
              && (dto.role.None? || FindRole(store.roles, dto.role.value).None?)
    ensures r.0.Created? <==>
              IsValidUsername(dto.username) && dto.password.Some? && IsValidPassword(dto.password.value)
              && !UsernameTaken(store, dto.username.value) && dto.employeeId in store.employees
              && dto.role.Some? && FindRole(store.roles, dto.role.value).Some?
    ensures r.0.Created? ==> r.0 == Created(AccountLocation, newId)
    ensures r.0.Created? ==>
              && dto.username.Some? && dto.password.Some? && dto.role.Some?
              && FindRole(store.roles, dto.role.value).Some?
              && var role := store.roles[FindRole(store.roles, dto.role.value).value];
              && r.1 == store.(accounts := store.accounts[newId :=
                   Account(dto.username.value, hash(dto.password.value), dto.employeeId, role.id)])
    ensures !r.0.Created? ==> r.1 == store
    ensures r.0.BadRequest? || r.0.ServerError? || r.0.Created?
  {
    if !IsValidUsername(dto.username) then (BadRequest(UsernameMessage), store)
    else if dto.password.None? then (ServerError(Some(InternalErrorPrefix)), store)
    else if !IsValidPassword(dto.password.value) then (BadRequest(PasswordMessage), store)
    else if UsernameTaken(store, dto.username.value) then (BadRequest(DuplicateMessage), store)
    else if dto.employeeId !in store.employees then (BadRequest(EmployeeMessage), store)
    else if dto.role.None? then (BadRequest(RoleMessage), store)
    else match FindRole(store.roles, dto.role.value)
      case None => (BadRequest(RoleMessage), store)
      case Some(k) =>
        var account := Account(dto.username.value, hash(dto.password.value), dto.employeeId, store.roles[k].id);
        (Created(AccountLocation, newId), store.(accounts := store.accounts[newId := account]))
  }

  /** `UpdateAccount`: a missing id is a 404; otherwise the username and the
      hash of the password are stored as given, with no credential rule. A
      `null` password makes the hasher throw and a `null` username is refused
      by the non-null column; both end in a 500 with nothing stored. */
  function UpdateAccount(id: int, dto: RegisterDto, store: AccountStore, hash: string -> string)
    : (r: (Response<()>, AccountStore))
    ensures id !in store.accounts ==> r == (NotFound(None), store)
    ensures r.0 == NoContent <==> id in store.accounts && dto.username.Some? && dto.password.Some?
    ensures r.0 == NoContent ==>
              r.1 == store.(accounts := store.accounts[id :=
                store.accounts[id].(username := dto.username.value, passwordHash := hash(dto.password.value))])
    ensures r.0 != NoContent ==> r.1 == store
  {
    if id !in store.accounts then (NotFound(None), store)
    else if dto.password.None? || dto.username.None? then (ServerError(Some(InternalErrorPrefix)), store)
    else
      var acc := store.accounts[id].(username := dto.username.value, passwordHash := hash(dto.password.value));
      (NoContent, store.(accounts := store.accounts[id := acc]))
  }

  /** At the level of the actions, `UpdateAccount` accepts credentials
      `Register` refuses: a username with a leading digit and a
      five-character password are stored unchanged. (Through the endpoint
      this body never reaches either action: model validation refuses it.) */
  lemma UpdateSkipsCredentialRules(id: int, store: AccountStore, hash: string -> string, newId: int)
    requires id in store.accounts
    requires newId !in store.accounts
    ensures var dto := RegisterDto(Some("1st"), Some("short"), 0, Some("User"));
            && Register(dto, store, hash, newId).0 == BadRequest(UsernameMessage)
            && UpdateAccount(id, dto, store, hash).0 == NoContent
            && UpdateAccount(id, dto, store, hash).1.accounts[id].username == "1st"
  {
    assert !IsValidUsername(Some("1st")) by { assert IsDigit("1st"[0]); }
  }
}

=== FILE: accounts.dfy ===
/** The account records the account controllers read and write. */
module Accounts {
  import opened Wrappers

  datatype Role = Role(id: int, name: string)

  datatype Account = Account(username: string, passwordHash: string, employeeId: int, roleId: int)

  /** The tables the account controllers consult: accounts by id, the ids of
      existing employees, and the roles in query order. */
  datatype AccountStore = AccountStore(accounts: map<int, Account>, employees: set<int>, roles: seq<Role>)

  /** Some account already uses the name. */
  predicate UsernameTaken(store: AccountStore, username: string) {
    exists id :: id in store.accounts && store.accounts[id].username == username
  }

  /** `FirstOrDefault(r => r.Name == name)`: the position of the first role
      carrying the name, if any. */
  function FindRole(roles: seq<Role>, name: string): (r: Option<nat>)
    ensures r.None? <==> forall i :: 0 <= i < |roles| ==> roles[i].name != name
    ensures r.Some? ==> r.value < |roles| && roles[r.value].name == name
    ensures r.Some? ==> forall i :: 0 <= i < r.value ==> roles[i].name != name
  {
    if |roles| == 0 then None
    else if roles[0].name == name then Some(0)
    else match FindRole(roles[1..], name)
      case None => None
      case Some(k) => Some(k + 1)
  }
}

=== FILE: char_class.dfy ===
/** Character classes used by the credential rules. The regex classes
    `[a-z]`, `[A-Z]`, `[0-9]` and the symbol class are exact. `char.IsDigit`,
    `\d` and `\w` are Unicode classes in .NET; here they are ASCII
    approximations, exact on ASCII input. */
module CharClass {

  predicate IsAsciiLower(c: char) { 'a' <= c <= 'z' }

  predicate IsAsciiUpper(c: char) { 'A' <= c <= 'Z' }

  /** `[0-9]`; also stands for `char.IsDigit` and `\d` (ASCII approximation). */
  predicate IsDigit(c: char) { '0' <= c <= '9' }

  /** `\w` (ASCII approximation): letters, digits and the underscore. */
  predicate IsWordChar(c: char) { IsAsciiLower(c) || IsAsciiUpper(c) || IsDigit(c) || c == '_' }

  /** `char.IsWhiteSpace`: the separators of Unicode categories Zs, Zl, Zp
      and the control characters U+0009 to U+000D and U+0085. */
  predicate IsWhiteSpace(c: char) {
    || '\t' <= c <= '\r'
    || c == ' ' || c == '\U{85}' || c == '\U{A0}' || c == '\U{1680}'
    || '\U{2000}' <= c <= '\U{200A}'
    || c == '\U{2028}' || c == '\U{2029}' || c == '\U{202F}' || c == '\U{205F}' || c == '\U{3000}'
  }

  /** The class `[!@#$%^&*(),.?":{}|<>]`: inside brackets every one of these is literal. */
  const Symbols: set<char> :=
    {'!', '@', '#', '$', '%', '^', '&', '*', '(', ')', ',', '.', '?', '"', ':', '{', '}', '|', '<', '>'}

  /** `string.IsNullOrWhiteSpace` on a non-null string: empty or all white space. */
  predicate IsBlank(s: string) {
    forall i :: 0 <= i < |s| ==> IsWhiteSpace(s[i])
  }

  predicate HasLower(s: string) { exists i :: 0 <= i < |s| && IsAsciiLower(s[i]) }

  predicate HasUpper(s: string) { exists i :: 0 <= i < |s| && IsAsciiUpper(s[i]) }

  predicate HasDigit(s: string) { exists i :: 0 <= i < |s| && IsDigit(s[i]) }

  predicate HasSymbol(s: string) { exists i :: 0 <= i < |s| && s[i] in Symbols }

  predicate HasNonWord(s: string) { exists i :: 0 <= i < |s| && !IsWordChar(s[i]) }

  /** `n` copies of `c`. */
  function Repeat(c: char, n: nat): (r: string)
    ensures |r| == n
    ensures forall i :: 0 <= i < n ==> r[i] == c
  {
    if n == 0 then [] else [c] + Repeat(c, n - 1)
  }

  /** Every symbol of the fixed class is a non-word character. */
  lemma SymbolsAreNonWord(c: char)
    requires c in Symbols
    ensures !IsWordChar(c)
  {
  }
}

=== FILE: credential_rules.dfy ===
/** The declarative rules on the registration body against the controller's
    own predicates, and the registration endpoint that applies both: model
    validation of the body first, then the action. */
module CredentialRules {
  import opened Wrappers
  import opened CharClass
  import opened Http
  import opened Accounts
  import opened RegisterDtoRules
  import AccountController

  /** The endpoint: an invalid body is answered by model validation before
      the action runs; a valid one reaches `Register`. */
  function RegisterEndpoint(dto: RegisterDto, store: AccountStore, hash: string -> string, newId: int)
    : (r: (Response<()>, AccountStore))
    requires newId !in store.accounts
    ensures !IsValid(dto) ==> r == (ValidationProblem, store)
    ensures IsValid(dto) ==> r == AccountController.Register(dto, store, hash, newId)
    ensures r.0.Status() == 201 || r.0.Status() == 400 || r.0.Status() == 500
    ensures r.0.Created? ==> IsValid(dto) && AccountController.IsValidUsername(dto.username)
    ensures r.0.Created? ==> dto.password.Some? && AccountController.IsValidPassword(dto.password.value)
    ensures r.0.Created? ==> |dto.password.value| <= 100
  {
    if !IsValid(dto) then (ValidationProblem, store)
    else AccountController.Register(dto, store, hash, newId)
  }

  /** The update endpoint binds the same body type, so model validation runs
      before `UpdateAccount` too; a valid body then reaches the action, which
      applies no credential rule of its own. */
  function UpdateEndpoint(id: int, dto: RegisterDto, store: AccountStore, hash: string -> string)
    : (r: (Response<()>, AccountStore))
    ensures !IsValid(dto) ==> r == (ValidationProblem, store)
    ensures IsValid(dto) ==> r == AccountController.UpdateAccount(id, dto, store, hash)
    ensures r.0 == NoContent <==> IsValid(dto) && id in store.accounts
    ensures r.0 == NoContent ==> r.1.accounts[id].username == dto.username.value
                                 && r.1.accounts[id].passwordHash == hash(dto.password.value)
  {
    if !IsValid(dto) then (ValidationProblem, store)
    else AccountController.UpdateAccount(id, dto, store, hash)
  }

  /** A body the annotations accept also passes the controller's username
      rule: both demand a non-blank name whose first character is not a digit. */
  lemma {:induction false} ValidBodyPassesUsernameRule(dto: RegisterDto)
    requires IsValid(dto)
    ensures AccountController.IsValidUsername(dto.username)
  {
    ValidBodyMeaning(dto);
  }

  /** On a non-blank name without line feeds the two username rules coincide. */
  lemma UsernameRulesCoincide(s: string)
    requires !IsBlank(s)
    requires forall i :: 0 <= i < |s| ==> s[i] != '\n'
    ensures AccountController.IsValidUsername(Some(s)) <==> RequiredOk(Some(s)) && UsernamePatternOk(Some(s))
  {
  }

  /** The annotation also refuses a line feed after the first character,
      which the controller's rule lets through. */
  lemma UsernameLineFeedOnlyRefusedByAnnotation()
    ensures AccountController.IsValidUsername(Some("a\nb"))
    ensures !UsernamePatternOk(Some("a\nb"))
  {
    assert !IsBlank("a\nb") by { assert !IsWhiteSpace("a\nb"[0]); }
    assert "a\nb"[1] == '\n';
  }

  /** Every character of the controller's symbol class is a non-word
      character, so a controller-valid password of at most 100 characters
      without line feeds meets the annotations too. */
  lemma {:induction false} ControllerPasswordMeetsAnnotations(p: string)
    requires AccountController.IsValidPassword(p)
    requires |p| <= 100
    requires forall i :: 0 <= i < |p| ==> p[i] != '\n'
    ensures RequiredOk(Some(p)) && PasswordLengthOk(Some(p)) && PasswordPatternOk(Some(p))
  {
    var d :| 0 <= d < |p| && p[d] in Symbols;
    SymbolsAreNonWord(p[d]);
    assert !IsWhiteSpace(p[d]);
  }

  /** `\W` is wider than the symbol class: a password whose only symbol is
      '-' meets the annotations and fails the controller's rule. */
  lemma HyphenOnlyPasswordSplitsTheRules()
    ensures RequiredOk(Some("Abcdefghij1-")) && PasswordLengthOk(Some("Abcdefghij1-"))
    ensures PasswordPatternOk(Some("Abcdefghij1-"))
    ensures !AccountController.IsValidPassword("Abcdefghij1-")
  {
    var p := "Abcdefghij1-";
    assert IsAsciiLower(p[1]) && IsAsciiUpper(p[0]) && IsDigit(p[10]) && !IsWordChar(p[11]);
    assert !IsWhiteSpace(p[0]);
    assert forall i :: 0 <= i < |p| ==> p[i] !in Symbols;
  }

  /** The 100-character cap exists only in the annotations: a 101-character
      password passes the controller's rule and fails the length annotation. */
  lemma LengthCapOnlyInAnnotations()
    ensures AccountController.IsValidPassword("aA1!" + Repeat('a', 97))
    ensures !PasswordLengthOk(Some("aA1!" + Repeat('a', 97)))
  {
    AccountController.PasswordLengthUnbounded(101);
  }

  /** Through the endpoint a hyphen-only password gets past model validation
      and is refused by the action with the password message. */
  lemma EndpointRefusesHyphenOnlyPassword(store: AccountStore, hash: string -> string, newId: int)
    requires newId !in store.accounts
    ensures var dto := RegisterDto(Some("alice"), Some("Abcdefghij1-"), 1, Some("User"));
            RegisterEndpoint(dto, store, hash, newId).0 == BadRequest(AccountController.PasswordMessage)
  {
    HyphenOnlyPasswordSplitsTheRules();
    var dto := RegisterDto(Some("alice"), Some("Abcdefghij1-"), 1, Some("User"));
    assert !IsBlank("alice") by { assert !IsWhiteSpace("alice"[0]); }
    assert !IsBlank("User") by { assert !IsWhiteSpace("User"[0]); }
    assert UsernamePatternOk(Some("alice"));
    assert IsValid(dto);
  }

  /** Through the endpoints, a body model validation accepts can still be
      refused by `Register` and stored by `UpdateAccount`: the hyphen-only
      password fails the controller's rule on registration and is hashed and
      kept on update. */
  lemma UpdateEndpointStoresWhatRegisterRefuses(id: int, store: AccountStore, hash: string -> string, newId: int)
    requires id in store.accounts
    requires newId !in store.accounts
    ensures var dto := RegisterDto(Some("alice"), Some("Abcdefghij1-"), 1, Some("User"));
            && RegisterEndpoint(dto, store, hash, newId).0 == BadRequest(AccountController.PasswordMessage)
            && UpdateEndpoint(id, dto, store, hash).0 == NoContent
            && UpdateEndpoint(id, dto, store, hash).1.accounts[id].passwordHash == hash("Abcdefghij1-")
  {
    EndpointRefusesHyphenOnlyPassword(store, hash, newId);
  }
}

=== FILE: device_controller.dfy ===
/** The device controller under `api/device`: read, create, update and
    delete of one device, with their 404/403/400 check order. Every
    exception is caught and answered with a 500 "Internal error". */
module DeviceController {
  import opened Wrappers
  import opened Json
  import opened Http
  import opened Devices

  const NotFoundMessage: string := "Device not found."
  const InvalidTypeMessage: string := "Invalid device type."
  const AssignedMessage: string := "Cannot delete device. It is currently assigned to employees."
  const InternalError: string := "Internal error"
  const DeviceLocation: string := "/api/device/"

  /** `GetDevice`: 404 for a missing id, then the ownership check, then the
      details with the type-name fallback and the current holder. Reading
      the caller's account id or the stored properties may throw. */
  function GetDevice(id: int, caller: Caller, store: DeviceStore, codec: Codec): (r: Response<DeviceInfo>)
    ensures r == NotFound(Some(NotFoundMessage)) <==> id !in store.devices
    ensures r.ServerError? <==>
              (id in store.devices
               && (|| CheckAccess(caller, store, store.devices[id]) == Fault
                   || (&& CheckAccess(caller, store, store.devices[id]) == Allowed
                       && DecodeProperties(codec, store.devices[id].additionalProperties).None?)))
    ensures r == Forbid <==> id in store.devices && CheckAccess(caller, store, store.devices[id]) == Denied
    ensures r.Ok? <==> id in store.devices && CheckAccess(caller, store, store.devices[id]) == Allowed
                       && DecodeProperties(codec, store.devices[id].additionalProperties).Some?
    ensures r.Ok? ==> var d := store.devices[id];
              && r.body.name == d.name && r.body.isEnabled == d.isEnabled
              && r.body.deviceTypeName == TypeNameOrUnknown(store.types, d)
              && r.body.currentEmployee == CurrentEmployee(d.assignments)
              && Some(r.body.additionalProperties) == DecodeProperties(codec, d.additionalProperties)
    ensures r.Ok? && caller.role == Some(UserRole) ==>
              caller.userId.Some? && caller.userId.value in store.accountEmployees &&
              HasActiveAssignment(store.devices[id].assignments, store.accountEmployees[caller.userId.value])
    ensures r.Ok? || r == NotFound(Some(NotFoundMessage)) || r == Forbid || r == ServerError(Some(InternalError))
  {
    if id !in store.devices then NotFound(Some(NotFoundMessage))
    else
      var d := store.devices[id];
      match CheckAccess(caller, store, d)
      case Fault => ServerError(Some(InternalError))
      case Denied => Forbid
      case Allowed =>
        match DecodeProperties(codec, d.additionalProperties)
        case None => ServerError(Some(InternalError))
        case Some(props) =>
          Ok(DeviceInfo(d.name, TypeNameOrUnknown(store.types, d), d.isEnabled, props,
                        CurrentEmployee(d.assignments)))
  }

  /** `CreateDevice`: an unknown type name is a 400 before anything is
      written; otherwise the device is added, unassigned, under the id the
      database assigns. */
  function CreateDevice(dto: DeviceDto, store: DeviceStore, codec: Codec, newId: int)
    : (r: (Response<()>, DeviceStore))
    requires newId !in store.devices
    ensures r.0 == BadRequest(InvalidTypeMessage) <==> FindTypeByName(store.types, dto.deviceTypeName).None?
    ensures r.0.Created? <==> FindTypeByName(store.types, dto.deviceTypeName).Some?
    ensures r.0.BadRequest? ==> r.1 == store
    ensures !r.0.BadRequest? ==> r.0 == Created(DeviceLocation, newId)
    ensures r.0.Created? ==>
              && r.1.types == store.types && r.1.accountEmployees == store.accountEmployees
              && r.1.devices.Keys == store.devices.Keys + {newId}
              && (forall other :: other in store.devices && other != newId ==> r.1.devices[other] == store.devices[other])
              && var d := r.1.devices[newId];
              && d.name == dto.name && d.isEnabled == dto.isEnabled && d.assignments == []
              && d.additionalProperties == codec.render(dto.additionalProperties)
              && d.typeId.Some? && exists i :: 0 <= i < |store.types| && store.types[i].id == d.typeId.value
                                                && store.types[i].name == Some(dto.deviceTypeName)
  {
    match FindTypeByName(store.types, dto.deviceTypeName)
    case None => (BadRequest(InvalidTypeMessage), store)
    case Some(k) =>
      var d := Device(dto.name, dto.isEnabled, Some(store.types[k].id), codec.render(dto.additionalProperties), []);
      (Created(DeviceLocation, newId), store.(devices := store.devices[newId := d]))
  }

  /** `UpdateDevice`: 404, then the ownership check, then the type check;
      only a request passing all three changes the device, and its
      assignments are kept. */
  function UpdateDevice(id: int, dto: DeviceDto, caller: Caller, store: DeviceStore, codec: Codec)
    : (r: (Response<()>, DeviceStore))
    ensures r.0 == NotFound(Some(NotFoundMessage)) <==> id !in store.devices
    ensures r.0.ServerError? <==> id in store.devices && CheckAccess(caller, store, store.devices[id]) == Fault
    ensures r.0 == Forbid <==> id in store.devices && CheckAccess(caller, store, store.devices[id]) == Denied
    ensures r.0 == BadRequest(InvalidTypeMessage) <==>
              id in store.devices && CheckAccess(caller, store, store.devices[id]) == Allowed
              && FindTypeByName(store.types, dto.deviceTypeName).None?
    ensures r.0 == NoContent <==>
              id in store.devices && CheckAccess(caller, store, store.devices[id]) == Allowed
              && FindTypeByName(store.types, dto.deviceTypeName).Some?
    ensures r.0 != NoContent ==> r.1 == store
    ensures r.0 == NoContent ==>
              && r.1.types == store.types && r.1.accountEmployees == store.accountEmployees
              && r.1.devices.Keys == store.devices.Keys
              && (forall other :: other in store.devices && other != id ==> r.1.devices[other] == store.devices[other])
              && var d := r.1.devices[id];
              && d.name == dto.name && d.isEnabled == dto.isEnabled
              && d.assignments == store.devices[id].assignments
              && d.additionalProperties == codec.render(dto.additionalProperties)
              && d.typeId == Some(store.types[FindTypeByName(store.types, dto.deviceTypeName).value].id)
  {
    if id !in store.devices then (NotFound(Some(NotFoundMessage)), store)
    else
      var d := store.devices[id];
      match CheckAccess(caller, store, d)
      case Fault => (ServerError(Some(InternalError)), store)
      case Denied => (Forbid, store)
      case Allowed =>
        match FindTypeByName(store.types, dto.deviceTypeName)
        case None => (BadRequest(InvalidTypeMessage), store)
        case Some(k) =>
          var d' := d.(name := dto.name, isEnabled := dto.isEnabled, typeId := Some(store.types[k].id),
                       additionalProperties := codec.render(dto.additionalProperties));
          (NoContent, store.(devices := store.devices[id := d']))
  }

  /** `DeleteDevice`: 404, then a 400 whenever any assignment record exists,
      returned or not; otherwise the device is removed. */
  function DeleteDevice(id: int, store: DeviceStore): (r: (Response<()>, DeviceStore))
    ensures r.0 == NotFound(Some(NotFoundMessage)) <==> id !in store.devices
    ensures r.0 == BadRequest(AssignedMessage) <==> id in store.devices && |store.devices[id].assignments| > 0
    ensures r.0 == NoContent <==> id in store.devices && |store.devices[id].assignments| == 0
    ensures r.0 == NoContent ==> r.1 == store.(devices := store.devices - {id})
    ensures r.0 != NoContent ==> r.1 == store
  {
    if id !in store.devices then (NotFound(Some(NotFoundMessage)), store)
    else if |store.devices[id].assignments| > 0 then (BadRequest(AssignedMessage), store)
    else (NoContent, store.(devices := store.devices - {id}))
  }

  /** A device whose every assignment has been returned has no current
      holder, yet delete still refuses it. */
  lemma DeleteRefusedAfterAllReturned(id: int, store: DeviceStore)
    requires id in store.devices && |store.devices[id].assignments| > 0
    requires forall j :: 0 <= j < |store.devices[id].assignments| ==> !Active(store.devices[id].assignments[j])
    ensures CurrentEmployee(store.devices[id].assignments) == None
    ensures DeleteDevice(id, store).0 == BadRequest(AssignedMessage)
  {
  }

  /** Read and update apply the same ownership rule: a caller is refused by
      one exactly when refused by the other. */
  lemma ReadAndUpdateShareAccess(id: int, dto: DeviceDto, caller: Caller, store: DeviceStore, codec: Codec)
    ensures GetDevice(id, caller, store, codec) == Forbid <==> UpdateDevice(id, dto, caller, store, codec).0 == Forbid
  {
  }

  /** For a caller without access, an unknown type name is never reported:
      the ownership check comes first. */
  lemma ForbidBeforeTypeCheck(id: int, dto: DeviceDto, caller: Caller, store: DeviceStore, codec: Codec)
    requires id in store.devices && CheckAccess(caller, store, store.devices[id]) == Denied
    requires FindTypeByName(store.types, dto.deviceTypeName).None?
    ensures UpdateDevice(id, dto, caller, store, codec).0 == Forbid
  {
  }

  /** A successful update is what a later read reports: the new name, flag
      and type name, the same current holder, and the new properties when
      the codec serialises them faithfully. */
  lemma {:induction false} UpdateThenRead(id: int, dto: DeviceDto, caller: Caller, store: DeviceStore, codec: Codec)
    requires UniqueTypeIds(store.types)
    requires UpdateDevice(id, dto, caller, store, codec).0 == NoContent
    requires dto.additionalProperties.JObject? && RoundTrips(codec, dto.additionalProperties)
    ensures var after := UpdateDevice(id, dto, caller, store, codec).1;
            GetDevice(id, caller, after, codec)
            == Ok(DeviceInfo(dto.name, dto.deviceTypeName, dto.isEnabled, dto.additionalProperties.members,
                             CurrentEmployee(store.devices[id].assignments)))
  {
    var after := UpdateDevice(id, dto, caller, store, codec).1;
    var k := FindTypeByName(store.types, dto.deviceTypeName).value;
    var d := after.devices[id];
    assert CheckAccess(caller, after, d) == CheckAccess(caller, store, store.devices[id]);
    var t := FindTypeById(store.types, store.types[k].id);
    assert t == Some(k);
  }
}

=== FILE: devices.dfy ===
/** Devices, their assignment records, and the rules both device
    controllers apply to them: who may touch a device, who currently holds
    it, and what its type is called. */
module Devices {
  import opened Wrappers
  import opened Json

  /** One `DeviceEmployee` row: the employee, the issue time (as ticks) and
      the return time, `None` while the device is still out. */
  datatype Assignment = Assignment(employeeId: int, issueDate: int, returnDate: Option<int>)

  /** A device type; its name column admits `null`. */
  datatype DeviceType = DeviceType(id: int, name: Option<string>)

  /** A device row with its assignments; `additionalProperties` is the
      stored JSON text. */
  datatype Device = Device(
    name: string,
    isEnabled: bool,
    typeId: Option<int>,
    additionalProperties: string,
    assignments: seq<Assignment>)

  /** The tables the device controllers consult: devices by id, device types
      in query order, and the employee id of each account id. */
  datatype DeviceStore = DeviceStore(
    devices: map<int, Device>,
    types: seq<DeviceType>,
    accountEmployees: map<int, int>)

  /** The caller's claims: the role (`None` when absent) and the account id
      parsed from the name-identifier claim (`None` when the claim is absent
      or not an integer, where the parse throws). */
  datatype Caller = Caller(role: Option<string>, userId: Option<int>)

  /** The create/update body, with the field names the controllers use. */
  datatype DeviceDto = DeviceDto(name: string, deviceTypeName: string, isEnabled: bool, additionalProperties: Json)

  /** The device details returned by a read; `currentEmployee` is the id of
      the current holder, if any. */
  datatype DeviceInfo = DeviceInfo(
    name: string,
    deviceTypeName: string,
    isEnabled: bool,
    additionalProperties: map<string, Json>,
    currentEmployee: Option<int>)

  const UserRole: string := "User"
  const UnknownType: string := "Unknown"

  predicate Active(a: Assignment) {
    a.returnDate.None?
  }

  /** Some assignment of the device to the employee has not been returned. */
  predicate HasActiveAssignment(assignments: seq<Assignment>, employeeId: int) {
    exists i :: 0 <= i < |assignments| && assignments[i].employeeId == employeeId && Active(assignments[i])
  }

  /** The ownership check's outcome: allowed, forbidden, or an exception
      while reading the caller's account id. */
  datatype Access = Allowed | Denied | Fault

  /** The ownership check: only the role "User" is checked; it needs an
      existing account whose employee has an unreturned assignment of the device. */
  function CheckAccess(caller: Caller, store: DeviceStore, device: Device): (r: Access)
    ensures caller.role != Some(UserRole) ==> r == Allowed
    ensures r == Fault <==> caller.role == Some(UserRole) && caller.userId.None?
    ensures r == Allowed && caller.role == Some(UserRole) ==>
              && caller.userId.Some? && caller.userId.value in store.accountEmployees
              && HasActiveAssignment(device.assignments, store.accountEmployees[caller.userId.value])
    ensures r == Denied <==>
              && caller.role == Some(UserRole) && caller.userId.Some?
              && (|| caller.userId.value !in store.accountEmployees
                  || !HasActiveAssignment(device.assignments, store.accountEmployees[caller.userId.value]))
  {
    if caller.role != Some(UserRole) then Allowed
    else match caller.userId
      case None => Fault
      case Some(uid) =>
        if uid in store.accountEmployees && HasActiveAssignment(device.assignments, store.accountEmployees[uid])
        then Allowed else Denied
  }

  /** Handing the device to the caller's employee grants a "User" caller access. */
  lemma IssueGrantsAccess(caller: Caller, store: DeviceStore, device: Device, issueDate: int)
    requires caller.userId.Some? && caller.userId.value in store.accountEmployees
    ensures var e := store.accountEmployees[caller.userId.value];
            CheckAccess(caller, store,
              device.(assignments := device.assignments + [Assignment(e, issueDate, None)])) == Allowed
  {
    var e := store.accountEmployees[caller.userId.value];
    var a := device.assignments + [Assignment(e, issueDate, None)];
    assert a[|a| - 1].employeeId == e && Active(a[|a| - 1]);
  }

  /** Returning the employee's only open assignment takes a "User" caller's access away. */
  lemma ReturnRevokesAccess(caller: Caller, store: DeviceStore, device: Device, k: nat, returnDate: int)
    requires caller.role == Some(UserRole) && caller.userId.Some?
    requires caller.userId.value in store.accountEmployees
    requires k < |device.assignments|
    requires device.assignments[k].employeeId == store.accountEmployees[caller.userId.value]
    requires forall i :: 0 <= i < |device.assignments| && i != k &&
               device.assignments[i].employeeId == store.accountEmployees[caller.userId.value]
               ==> !Active(device.assignments[i])
    ensures CheckAccess(caller, store, device.(assignments :=
              device.assignments[k := device.assignments[k].(returnDate := Some(returnDate))])) == Denied
  {
  }

  /** Position `k` is the first entry of the unreturned assignments ordered
      by descending issue date with a stable sort: unreturned, issued no
      earlier than any unreturned one, and strictly later than every
      unreturned one before it. */
  predicate IsCurrentHolder(a: seq<Assignment>, k: nat) {
    && k < |a| && Active(a[k])
    && (forall j :: 0 <= j < |a| && Active(a[j]) ==> a[j].issueDate <= a[k].issueDate)
    && (forall j :: 0 <= j < k && Active(a[j]) ==> a[j].issueDate < a[k].issueDate)
  }

  /** The current holder's position: none exactly when every assignment is returned. */
  function CurrentHolder(a: seq<Assignment>): (r: Option<nat>)
    ensures r.None? <==> forall j :: 0 <= j < |a| ==> !Active(a[j])
    ensures r.Some? ==> IsCurrentHolder(a, r.value)
  {
    if |a| == 0 then None
    else
      var prev := CurrentHolder(a[..|a| - 1]);
      var last := a[|a| - 1];
      if !Active(last) then prev
      else if prev.None? || a[prev.value].issueDate < last.issueDate then Some(|a| - 1)
      else prev
  }

  /** The description of the current holder fixes one position. */
  lemma CurrentHolderUnique(a: seq<Assignment>, i: nat, k: nat)
    requires IsCurrentHolder(a, i) && IsCurrentHolder(a, k)
    ensures i == k
  {
  }

  /** A later issue with an equal date does not displace the holder (ties go
      to the earlier record); a strictly later one does. */
  lemma NewIssueAndHolder(a: seq<Assignment>, x: Assignment)
    requires Active(x)
    requires CurrentHolder(a).Some?
    ensures var k := CurrentHolder(a).value;
            x.issueDate <= a[k].issueDate ==> CurrentHolder(a + [x]) == Some(k)
    ensures x.issueDate > a[CurrentHolder(a).value].issueDate ==> CurrentHolder(a + [x]) == Some(|a|)
  {
    var k := CurrentHolder(a).value;
    var b := a + [x];
    var r := CurrentHolder(b).value;
    if x.issueDate <= a[k].issueDate {
      assert IsCurrentHolder(b, k);
      CurrentHolderUnique(b, r, k);
    } else {
      assert IsCurrentHolder(b, |a|);
      CurrentHolderUnique(b, r, |a|);
    }
  }

  /** Adding a returned record never changes the current holder. */
  lemma ReturnedRecordIgnored(a: seq<Assignment>, x: Assignment)
    requires !Active(x)
    ensures CurrentHolder(a + [x]) == CurrentHolder(a)
  {
    assert (a + [x])[..|a|] == a;
  }

  /** The employee id of the current holder. */
  function CurrentEmployee(a: seq<Assignment>): (r: Option<int>)
    ensures r.None? <==> forall j :: 0 <= j < |a| ==> !Active(a[j])
    ensures r.Some? ==> HasActiveAssignment(a, r.value)
    ensures r.Some? ==> CurrentHolder(a).Some? && r.value == a[CurrentHolder(a).value].employeeId
  {
    match CurrentHolder(a)
    case None => None
    case Some(k) => Some(a[k].employeeId)
  }

  /** `FirstOrDefault(dt => dt.Name == name)`: the first type with that name. */
  function FindTypeByName(types: seq<DeviceType>, name: string): (r: Option<nat>)
    ensures r.None? <==> forall i :: 0 <= i < |types| ==> types[i].name != Some(name)
    ensures r.Some? ==> r.value < |types| && types[r.value].name == Some(name)
    ensures r.Some? ==> forall i :: 0 <= i < r.value ==> types[i].name != Some(name)
  {
    if |types| == 0 then None
    else if types[0].name == Some(name) then Some(0)
    else match FindTypeByName(types[1..], name)
      case None => None
      case Some(k) => Some(k + 1)
  }

  /** The type row a device's foreign key points at. */
  function FindTypeById(types: seq<DeviceType>, id: int): (r: Option<nat>)
    ensures r.None? <==> forall i :: 0 <= i < |types| ==> types[i].id != id
    ensures r.Some? ==> r.value < |types| && types[r.value].id == id
  {
    if |types| == 0 then None
    else if types[0].id == id then Some(0)
    else match FindTypeById(types[1..], id)
      case None => None
      case Some(k) => Some(k + 1)
  }

  /** `device.DeviceType?.Name ?? "Unknown"`. */
  function TypeNameOrUnknown(types: seq<DeviceType>, device: Device): (r: string)
    ensures device.typeId.None? ==> r == UnknownType
    ensures r != UnknownType ==>
              device.typeId.Some? && exists i :: 0 <= i < |types| && types[i].id == device.typeId.value
                                                && types[i].name == Some(r)
    ensures device.typeId.Some? && FindTypeById(types, device.typeId.value).Some?
            && types[FindTypeById(types, device.typeId.value).value].name.Some?
            ==> r == types[FindTypeById(types, device.typeId.value).value].name.value
  {
    match device.typeId
    case None => UnknownType
    case Some(tid) =>
      match FindTypeById(types, tid)
      case None => UnknownType
      case Some(k) => types[k].name.GetOr(UnknownType)
  }

  /** `Deserialize<Dictionary<string, object>>(text) ?? new()`: `None` when
      the deserialiser throws. */
  function DecodeProperties(codec: Codec, text: string): (r: Option<map<string, Json>>)
    ensures codec.parse(text) == Some(JNull) ==> r == Some(map[])
    ensures r.Some? && r.value != map[] ==> codec.parse(text) == Some(JObject(r.value))
    ensures codec.parse(text).None? ==> r.None?
    ensures r.Some? <==> codec.parse(text) == Some(JNull) || (codec.parse(text).Some? && codec.parse(text).value.JObject?)
    ensures forall m :: codec.parse(text) == Some(JObject(m)) ==> r == Some(m)
  {
    match codec.parse(text)
    case Some(JNull) => Some(map[])
    case Some(JObject(m)) => Some(m)
    case _ => None
  }

  /** Type ids are unique, as the primary key makes them. */
  predicate UniqueTypeIds(types: seq<DeviceType>) {
    forall i, j :: 0 <= i < |types| && 0 <= j < |types| && types[i].id == types[j].id ==> i == j
  }
}

=== FILE: http.dfy ===
/** The HTTP results the controllers return, reduced to what the logic decides. */
module Http {
  import opened Wrappers

  /** `Created` carries the location prefix and the new id (location = prefix + id).
      `ServerError` carries the response text, or `None` when the exception is
      left unhandled and the host answers 500 on its own.
      `ValidationProblem` is the automatic 400 of model validation. */
  datatype Response<+T> =
    | Ok(body: T)
    | Created(location: string, id: int)
    | NoContent
    | BadRequest(message: string)
    | ValidationProblem
    | NotFound(notFoundMessage: Option<string>)
    | Forbid
    | ServerError(errorBody: Option<string>)
  {
    /** The status code the response is sent with. */
    function Status(): int {
      match this
      case Ok(_) => 200
      case Created(_, _) => 201
      case NoContent => 204
      case BadRequest(_) => 400
      case ValidationProblem => 400
      case NotFound(_) => 404
      case Forbid => 403
      case ServerError(_) => 500
    }
  }

  /** The same decision, ignoring the text of a 500 and the location prefix of a 201. */
  predicate SameDecision<T(==)>(a: Response<T>, b: Response<T>) {
    match a
    case ServerError(_) => b.ServerError?
    case Created(_, id) => b.Created? && b.id == id
    case _ => a == b
  }

  /** Responses with the same decision are sent with the same status code. */
  lemma SameDecisionSameStatus<T>(a: Response<T>, b: Response<T>)
    requires SameDecision(a, b)
    ensures a.Status() == b.Status()
  {
  }
}

=== FILE: json.dfy ===
/** A small closed model of JSON values, and the parser/serialiser the
    application borrows from the framework, kept abstract. */
module Json {
  import opened Wrappers

  /** A JSON value. Numbers keep their lexeme so that no floating point is
      involved; objects are maps from member name to value. */
  datatype Json =
    | JNull
    | JBool(b: bool)
    | JNumber(lexeme: string)
    | JString(s: string)
    | JArray(items: seq<Json>)
    | JObject(members: map<string, Json>)

  /** The framework's JSON text handling, passed in as a value:
      `parse` is `None` exactly when parsing throws; `render` is the
      serialiser's compact JSON text of a value; `indented` is the indented
      JSON text a node's `ToString()` writes for a non-string node. */
  datatype Codec = Codec(parse: string -> Option<Json>, render: Json -> string, indented: Json -> string)

  /** A codec whose serialisation of `v` parses back to `v`. */
  predicate RoundTrips(codec: Codec, v: Json) {
    codec.parse(codec.render(v)) == Some(v)
  }
}

=== FILE: legacy_account_controller.dfy ===
/** The older copy of the account controller (`api/Account`, no logging, no
    try/catch). Its predicates and actions are transcribed on their own and
    then compared with the newer copy. */
module LegacyAccountController {
  import opened Wrappers
  import opened CharClass
  import opened Http
  import opened Accounts
  import opened RegisterDtoRules
  import Current = AccountController

  const AccountsLocation: string := "/api/accounts/"

  /** The username rule of this copy. */
  function IsValidUsername(username: Option<string>): (r: bool)
    ensures r ==> username.Some? && |username.value| > 0 && !IsDigit(username.value[0])
    ensures username.None? || IsBlank(username.value) ==> !r
  {
    username.Some? && !IsBlank(username.value) && !IsDigit(username.value[0])
  }

  /** The password rule of this copy. */
  function IsValidPassword(password: string): (r: bool)
    ensures r ==> |password| >= 12
    ensures r ==> HasLower(password) && HasUpper(password) && HasDigit(password) && HasSymbol(password)
  {
    && |password| >= 12
    && (exists i :: 0 <= i < |password| && 'a' <= password[i] <= 'z')
    && (exists i :: 0 <= i < |password| && 'A' <= password[i] <= 'Z')
    && (exists i :: 0 <= i < |password| && '0' <= password[i] <= '9')
    && (exists i :: 0 <= i < |password| && password[i] in Symbols)
  }

  /** Both predicates agree with the newer copy on every input. */
  lemma PredicatesAgree(username: Option<string>, password: string)
    ensures IsValidUsername(username) == Current.IsValidUsername(username)
    ensures IsValidPassword(password) == Current.IsValidPassword(password)
  {
  }

  /** `Register` of this copy: the same checks in the same order; a `null`
      password throws unhandled, which the host answers with a bare 500. */
  function Register(dto: RegisterDto, store: AccountStore, hash: string -> string, newId: int)
    : (r: (Response<()>, AccountStore))
    requires newId !in store.accounts
    ensures r.0 == BadRequest(Current.UsernameMessage) <==> !IsValidUsername(dto.username)
    ensures r.0 == ServerError(None) <==> IsValidUsername(dto.username) && dto.password.None?
    ensures r.0.Created? ==> r.0 == Created(AccountsLocation, newId)
    ensures !r.0.Created? ==> r.1 == store
  {
    if !IsValidUsername(dto.username) then (BadRequest(Current.UsernameMessage), store)
    else if dto.password.None? then (ServerError(None), store)
    else if !IsValidPassword(dto.password.value) then (BadRequest(Current.PasswordMessage), store)
    else if exists id :: id in store.accounts && store.accounts[id].username == dto.username.value then
      (BadRequest(Current.DuplicateMessage), store)
    else if dto.employeeId !in store.employees then (BadRequest(Current.EmployeeMessage), store)
    else if dto.role.None? || FindRole(store.roles, dto.role.value).None? then
      (BadRequest(Current.RoleMessage), store)
    else
      var role := store.roles[FindRole(store.roles, dto.role.value).value];
      var account := Account(dto.username.value, hash(dto.password.value), dto.employeeId, role.id);
      (Created(AccountsLocation, newId), store.(accounts := store.accounts[newId := account]))
  }

  /** The two copies of `Register` make the same decision and the same
      change, so this copy keeps the first-failure order username, password,
      uniqueness, employee, role. */
  lemma RegisterAgrees(dto: RegisterDto, store: AccountStore, hash: string -> string, newId: int)
    requires newId !in store.accounts
    ensures SameDecision(Register(dto, store, hash, newId).0, Current.Register(dto, store, hash, newId).0)
    ensures Register(dto, store, hash, newId).1 == Current.Register(dto, store, hash, newId).1
  {
    PredicatesAgree(dto.username, if dto.password.Some? then dto.password.value else "");
  }

  /** `UpdateAccount` of this copy: no credential rule; a missing id is a 404. */
  function UpdateAccount(id: int, dto: RegisterDto, store: AccountStore, hash: string -> string)
    : (r: (Response<()>, AccountStore))
    ensures id !in store.accounts ==> r == (NotFound(None), store)
    ensures r.0 == NoContent <==> id in store.accounts && dto.username.Some? && dto.password.Some?
  {
    if id !in store.accounts then (NotFound(None), store)
    else if dto.password.None? || dto.username.None? then (ServerError(None), store)
    else
      var acc := store.accounts[id];
      var updated := Account(dto.username.value, hash(dto.password.value), acc.employeeId, acc.roleId);
      (NoContent, store.(accounts := store.accounts[id := updated]))
  }

  /** The two copies of `UpdateAccount` agree, so any username and password
      are stored for an existing account here too. */
  lemma UpdateAgrees(id: int, dto: RegisterDto, store: AccountStore, hash: string -> string)
    ensures SameDecision(UpdateAccount(id, dto, store, hash).0, Current.UpdateAccount(id, dto, store, hash).0)
    ensures UpdateAccount(id, dto, store, hash).1 == Current.UpdateAccount(id, dto, store, hash).1
  {
  }
}

=== FILE: legacy_device_controller.dfy ===
/** The older copy of the device controller: the same routes and rules with
    no try/catch, so an exception surfaces as the host's bare 500. Each
    action is transcribed on its own and compared with the newer copy. */
module LegacyDeviceController {
  import opened Wrappers
  import opened Json
  import opened Http
  import opened Devices
  import Current = DeviceController

  /** `GetDevice` of this copy. */
  function GetDevice(id: int, caller: Caller, store: DeviceStore, codec: Codec): (r: Response<DeviceInfo>)
    ensures id !in store.devices ==> r == NotFound(Some(Current.NotFoundMessage))
    ensures r.Ok? && caller.role == Some(UserRole) ==>
              caller.userId.Some? && caller.userId.value in store.accountEmployees &&
              HasActiveAssignment(store.devices[id].assignments, store.accountEmployees[caller.userId.value])
  {
    if id !in store.devices then NotFound(Some(Current.NotFoundMessage))
    else
      var d := store.devices[id];
      if caller.role == Some(UserRole) && caller.userId.None? then ServerError(None)
      else if caller.role == Some(UserRole) &&
              (caller.userId.value !in store.accountEmployees ||
               !HasActiveAssignment(d.assignments, store.accountEmployees[caller.userId.value]))
      then Forbid
      else
        var props := DecodeProperties(codec, d.additionalProperties);
        if props.None? then ServerError(None)
        else Ok(DeviceInfo(d.name, TypeNameOrUnknown(store.types, d), d.isEnabled, props.value,
                           CurrentEmployee(d.assignments)))
  }

  /** Both copies of the read decide alike: same 404/403 and details; only the 500 body differs. */
  lemma GetDeviceAgrees(id: int, caller: Caller, store: DeviceStore, codec: Codec)
    ensures SameDecision(GetDevice(id, caller, store, codec), Current.GetDevice(id, caller, store, codec))
  {
  }

  /** `CreateDevice` of this copy. */
  function CreateDevice(dto: DeviceDto, store: DeviceStore, codec: Codec, newId: int)
    : (r: (Response<()>, DeviceStore))
    requires newId !in store.devices
    ensures r.0.BadRequest? ==> r.1 == store
  {
    var t := FindTypeByName(store.types, dto.deviceTypeName);
    if t.None? then (BadRequest(Current.InvalidTypeMessage), store)
    else
      var d := Device(dto.name, dto.isEnabled, Some(store.types[t.value].id),
                      codec.render(dto.additionalProperties), []);
      (Created(Current.DeviceLocation, newId), store.(devices := store.devices[newId := d]))
  }

  /** Both copies of create answer and write alike. */
  lemma CreateDeviceAgrees(dto: DeviceDto, store: DeviceStore, codec: Codec, newId: int)
    requires newId !in store.devices
    ensures CreateDevice(dto, store, codec, newId) == Current.CreateDevice(dto, store, codec, newId)
  {
  }

  /** `UpdateDevice` of this copy. */
  function UpdateDevice(id: int, dto: DeviceDto, caller: Caller, store: DeviceStore, codec: Codec)
    : (r: (Response<()>, DeviceStore))
    ensures id !in store.devices ==> r == (NotFound(Some(Current.NotFoundMessage)), store)
    ensures r.0 != NoContent ==> r.1 == store
  {
    if id !in store.devices then (NotFound(Some(Current.NotFoundMessage)), store)
    else
      var d := store.devices[id];
      if caller.role == Some(UserRole) && caller.userId.None? then (ServerError(None), store)
      else if caller.role == Some(UserRole) &&
              (caller.userId.value !in store.accountEmployees ||
               !HasActiveAssignment(d.assignments, store.accountEmployees[caller.userId.value]))
      then (Forbid, store)
      else
        var t := FindTypeByName(store.types, dto.deviceTypeName);
        if t.None? then (BadRequest(Current.InvalidTypeMessage), store)
        else
          var d' := Device(dto.name, dto.isEnabled, Some(store.types[t.value].id),
                           codec.render(dto.additionalProperties), d.assignments);
          (NoContent, store.(devices := store.devices[id := d']))
  }

  /** Both copies of update decide in the same 404/403/400 order and write alike. */
  lemma UpdateDeviceAgrees(id: int, dto: DeviceDto, caller: Caller, store: DeviceStore, codec: Codec)
    ensures SameDecision(UpdateDevice(id, dto, caller, store, codec).0, Current.UpdateDevice(id, dto, caller, store, codec).0)
    ensures UpdateDevice(id, dto, caller, store, codec).1 == Current.UpdateDevice(id, dto, caller, store, codec).1
  {
  }

  /** `DeleteDevice` of this copy. */
  function DeleteDevice(id: int, store: DeviceStore): (r: (Response<()>, DeviceStore))
    ensures r.0 == NoContent ==> id in store.devices && store.devices[id].assignments == []
  {
    if id !in store.devices then (NotFound(Some(Current.NotFoundMessage)), store)
    else if store.devices[id].assignments != [] then (BadRequest(Current.AssignedMessage), store)
    else (NoContent, store.(devices := store.devices - {id}))
  }

  /** Both copies of delete refuse any device with an assignment record. */
  lemma DeleteDeviceAgrees(id: int, store: DeviceStore)
    ensures DeleteDevice(id, store) == Current.DeleteDevice(id, store)
  {
  }
}

=== FILE: register_dto.dfy ===
/** The registration request body and the data-annotation rules declared on
    it, which model validation applies before the action runs. */
module RegisterDtoRules {
  import opened Wrappers
  import opened CharClass

  /** The bound body; `None` is a property the JSON left out (C# `null`). */
  datatype RegisterDto = RegisterDto(
    username: Option<string>,
    password: Option<string>,
    employeeId: int,
    role: Option<string>)

  /** `[Required]` on a string: not null, not empty, not all white space. */
  predicate RequiredOk(s: Option<string>)
    ensures RequiredOk(s) <==> s.Some? && exists i :: 0 <= i < |s.value| && !IsWhiteSpace(s.value[i])
  {
    s.Some? && !IsBlank(s.value)
  }

  /** `[RegularExpression("^[^\\d].*")]`: null and empty pass; otherwise the
      match must cover the whole value, so the first character is not a digit
      and, since `.` stops at a line feed, no later character is one. */
  predicate UsernamePatternOk(s: Option<string>)
    ensures UsernamePatternOk(s) <==> s.None? || s.value == [] || (!IsDigit(s.value[0]) && '\n' !in s.value[1..])
  {
    s.None? || |s.value| == 0 ||
    (!IsDigit(s.value[0]) && forall i :: 1 <= i < |s.value| ==> s.value[i] != '\n')
  }

  /** `[StringLength(100, MinimumLength = 12)]`: null passes. */
  predicate PasswordLengthOk(s: Option<string>)
    ensures s.None? ==> PasswordLengthOk(s)
    ensures s.Some? && |s.value| < 12 ==> !PasswordLengthOk(s)
    ensures s.Some? && |s.value| > 100 ==> !PasswordLengthOk(s)
  {
    s.None? || 12 <= |s.value| <= 100
  }

  /** `[RegularExpression("^(?=.*[a-z])(?=.*[A-Z])(?=.*\\d)(?=.*\\W).+$")]`:
      null and empty pass; otherwise a whole-value match needs no line feed
      anywhere and one lower-case letter, upper-case letter, digit and
      non-word character. */
  predicate PasswordPatternOk(s: Option<string>)
    ensures s.None? || s == Some([]) ==> PasswordPatternOk(s)
    ensures s.Some? && '\n' in s.value ==> !PasswordPatternOk(s)
    ensures PasswordPatternOk(s) && s.Some? && |s.value| > 0 ==>
              HasLower(s.value) && HasUpper(s.value) && HasDigit(s.value) && HasNonWord(s.value)
    ensures (&& s.Some? && |s.value| > 0 && '\n' !in s.value
             && HasLower(s.value) && HasUpper(s.value) && HasDigit(s.value) && HasNonWord(s.value))
            ==> PasswordPatternOk(s)
  {
    s.None? || |s.value| == 0 ||
    ((forall i :: 0 <= i < |s.value| ==> s.value[i] != '\n') &&
     HasLower(s.value) && HasUpper(s.value) && HasDigit(s.value) && HasNonWord(s.value))
  }

  /** All annotations of the body. `[Required]` on the integer `EmployeeId`
      always holds, since a value type is never null. */
  predicate IsValid(dto: RegisterDto)
    ensures IsValid(dto) ==> dto.username.Some? && dto.password.Some? && dto.role.Some?
    ensures IsValid(dto) ==> |dto.username.value| > 0 && !IsDigit(dto.username.value[0])
    ensures IsValid(dto) ==> 12 <= |dto.password.value| <= 100 && HasNonWord(dto.password.value)
    ensures dto.username.Some? && |dto.username.value| > 0 && IsDigit(dto.username.value[0]) ==> !IsValid(dto)
  {
    && RequiredOk(dto.username) && UsernamePatternOk(dto.username)
    && RequiredOk(dto.password) && PasswordLengthOk(dto.password) && PasswordPatternOk(dto.password)
    && RequiredOk(dto.role)
  }

  /** A valid body has a username whose first character is not a digit, and
      a password of 12 to 100 characters with each required class. */
  lemma ValidBodyMeaning(dto: RegisterDto)
    requires IsValid(dto)
    ensures dto.username.Some? && |dto.username.value| > 0 && !IsDigit(dto.username.value[0])
    ensures dto.password.Some? && 12 <= |dto.password.value| <= 100
    ensures HasLower(dto.password.value) && HasUpper(dto.password.value)
    ensures HasDigit(dto.password.value) && HasNonWord(dto.password.value)
    ensures dto.role.Some?
  {
  }
}

=== FILE: validation_middleware.dfy ===
/** The device request-body validation middleware: which requests it
    inspects, how it reads the buffered body, and the presence check it
    applies to `additionalProperties` before handing the request on. */
module ValidationMiddleware {
  import opened Wrappers
  import opened Json
  import ValidationRules

  /** The path segment whose writes are inspected. */
  const DevicePrefix: string := "/api/device"

  /** The text of the catch-all rejection. */
  const InvalidJson: string := "Invalid JSON format."

  /** The request body after buffering: its full text and the read position. */
  datatype Body = Body(text: string, position: nat)

  datatype Request = Request(verb: string, path: string, body: Body)

  /** Either the request goes on to the next stage, or a response is written and the pipeline stops. */
  datatype Outcome = Forward(request: Request) | Reject(status: int, message: string)

  /** The expected keys of one device type, as the entries of a
      `Dictionary<string, string>` in enumeration order. */
  type ExpectedFields = seq<(string, string)>

  /** `_rules`: device type name to its expected keys. */
  type RuleTable = map<string, ExpectedFields>

  /** The middleware's state: `_rules`, where `None` is the C# `null`, and the
      loaded `_validationRules` catalog. */
  datatype Middleware = Middleware(rules: Option<RuleTable>, validationRules: ValidationRules.Catalog)

  /** The constructor: loads the catalog from the parsed rules document and
      never assigns `_rules`, which therefore stays `null`. A load failure
      is fatal to the constructor. */
  function Construct(document: Json): (r: Result<Middleware, ValidationRules.LoadError>)
    ensures r.Success? ==> r.value.rules == None
    ensures r.Success? <==> ValidationRules.LoadCatalog(document).Success?
    ensures r.Success? ==> r.value.validationRules == ValidationRules.LoadCatalog(document).value
  {
    match ValidationRules.LoadCatalog(document)
    case Success(catalog) => Success(Middleware(None, catalog))
    case Failure(e) => Failure(e)
  }

  /** Ordinal case-insensitive comparison of one character; only ASCII
      letters are folded. */
  function FoldAscii(c: char): char {
    if 'A' <= c <= 'Z' then (c as int + 32) as char else c
  }

  predicate EqualsIgnoreCase(a: string, b: string) {
    |a| == |b| && forall i :: 0 <= i < |a| ==> FoldAscii(a[i]) == FoldAscii(b[i])
  }

  /** `PathString.StartsWithSegments`: the path equals the prefix, or continues
      it with a '/', comparing case-insensitively. */
  predicate StartsWithSegments(path: string, prefix: string)
    ensures StartsWithSegments(path, prefix) ==> |prefix| <= |path|
    ensures |prefix| <= |path| && path[..|prefix|] == prefix && (|path| == |prefix| || path[|prefix|] == '/')
            ==> StartsWithSegments(path, prefix)
    ensures |prefix| < |path| && path[|prefix|] != '/' ==> !StartsWithSegments(path, prefix)
  {
    && |prefix| <= |path|
    && EqualsIgnoreCase(path[..|prefix|], prefix)
    && (|path| == |prefix| || path[|prefix|] == '/')
  }

  /** The gate: a POST or PUT under the device segment. */
  predicate Inspected(req: Request) {
    StartsWithSegments(req.path, DevicePrefix) && (req.verb == "POST" || req.verb == "PUT")
  }

  /** What reading the body to its end returns: everything from the current position. */
  function Remaining(b: Body): string {
    if b.position <= |b.text| then b.text[b.position..] else []
  }

  /** A member of a JSON object node; a JSON `null` member reads as a `null` node. */
  function Member(m: map<string, Json>, key: string): (r: Option<Json>)
    ensures r.Some? <==> key in m && m[key] != JNull
    ensures r.Some? ==> r.value == m[key]
  {
    if key in m && m[key] != JNull then Some(m[key]) else None
  }

  /** `JsonNode.ToString()`: a string value unquoted, any other node as
      indented JSON text. */
  function NodeText(j: Json, indented: Json -> string): string {
    if j.JString? then j.s else indented(j)
  }

  function MissingMessage(key: string, typeName: string): string {
    "Missing field '" + key + "' for device type '" + typeName + "'."
  }

  /** The index of the first expected key absent from `props`, if any. */
  function FirstMissing(expected: ExpectedFields, props: map<string, Json>): (r: Option<nat>)
    ensures r.None? <==> forall i :: 0 <= i < |expected| ==> expected[i].0 in props
    ensures r.Some? ==> r.value < |expected| && expected[r.value].0 !in props
    ensures r.Some? ==> forall i :: 0 <= i < r.value ==> expected[i].0 in props
  {
    if |expected| == 0 then None
    else if expected[0].0 !in props then Some(0)
    else match FirstMissing(expected[1..], props)
      case None => None
      case Some(k) => Some(k + 1)
  }

  /** The verdict of the try block on the parsed body: `Fail` is a response
      written with status 400, `Pass` falls through to the next stage. */
  datatype Verdict = Pass | Fail(message: string)

  /** The try/catch block. `parsed` is `None` when parsing throws. Indexing
      a node that is not an object, `AsObject` on a non-object
      `additionalProperties`, and `TryGetValue` on a `null` table all throw,
      and every exception becomes the generic rejection. */
  function Inspect(rules: Option<RuleTable>, indented: Json -> string, parsed: Option<Json>): (v: Verdict)
    ensures parsed.None? ==> v == Fail(InvalidJson)
    ensures parsed == Some(JNull) ==> v == Pass
    ensures parsed.Some? && !parsed.value.JNull? && !parsed.value.JObject? ==> v == Fail(InvalidJson)
    ensures (&& parsed.Some? && parsed.value.JObject? && "additionalProperties" in parsed.value.members
             && !parsed.value.members["additionalProperties"].JNull?
             && !parsed.value.members["additionalProperties"].JObject?)
            ==> v == Fail(InvalidJson)
    ensures (&& parsed.Some? && parsed.value.JObject? && Member(parsed.value.members, "deviceTypeName").None?
             && (|| Member(parsed.value.members, "additionalProperties").None?
                 || Member(parsed.value.members, "additionalProperties").value.JObject?))
            ==> v == Pass
    ensures v.Fail? && v.message != InvalidJson ==>
              && rules.Some? && parsed.Some? && parsed.value.JObject?
              && Member(parsed.value.members, "deviceTypeName").Some?
              && Member(parsed.value.members, "additionalProperties").Some?
              && Member(parsed.value.members, "additionalProperties").value.JObject?
  {
    match parsed
    case None => Fail(InvalidJson)
    case Some(JNull) => Pass
    case Some(JObject(m)) =>
      var typeName := (match Member(m, "deviceTypeName")
                       case Some(t) => Some(NodeText(t, indented))
                       case None => None);
      var props := Member(m, "additionalProperties");
      if props.Some? && !props.value.JObject? then Fail(InvalidJson)
      else if typeName.None? || props.None? then Pass
      else
        (match rules
         case None => Fail(InvalidJson)
         case Some(table) =>
           if typeName.value !in table then Pass
           else
             (match FirstMissing(table[typeName.value], props.value.members)
              case None => Pass
              case Some(k) => Fail(MissingMessage(table[typeName.value][k].0, typeName.value))))
    case Some(_) => Fail(InvalidJson)
  }

  /** `InvokeAsync`: requests outside the gate go on untouched; inside it the
      body is read to its end, rewound to position 0, and inspected. */
  function Invoke(mw: Middleware, codec: Codec, req: Request): (r: Outcome)
    ensures !Inspected(req) ==> r == Forward(req)
    ensures r.Reject? ==> Inspected(req) && r.status == 400
    ensures r.Forward? ==> r.request.verb == req.verb && r.request.path == req.path
    ensures r.Forward? ==> r.request.body.text == req.body.text
    ensures r.Forward? && Inspected(req) ==> r.request.body.position == 0
  {
    if !Inspected(req) then Forward(req)
    else
      var text := Remaining(req.body);
      match Inspect(mw.rules, codec.indented, codec.parse(text))
      case Pass => Forward(Rewound(req))
      case Fail(msg) => Reject(400, msg)
  }

  /** The request handed on after inspection: the same request, rewound. */
  function Rewound(req: Request): Request {
    req.(body := req.body.(position := 0))
  }

  /** A body that does not parse is rejected with the generic message. */
  lemma UnparseableBodyRejected(mw: Middleware, codec: Codec, req: Request)
    requires Inspected(req)
    requires codec.parse(Remaining(req.body)) == None
    ensures Invoke(mw, codec, req) == Reject(400, InvalidJson)
  {
  }

  /** A body whose root is neither an object nor `null` makes the indexer throw. */
  lemma NonObjectRootRejected(mw: Middleware, codec: Codec, req: Request)
    requires Inspected(req)
    requires codec.parse(Remaining(req.body)).Some?
    requires var j := codec.parse(Remaining(req.body)).value; !j.JObject? && !j.JNull?
    ensures Invoke(mw, codec, req) == Reject(400, InvalidJson)
  {
  }

  /** An `additionalProperties` member that is present, not `null` and not an
      object makes `AsObject` throw, whatever the rest of the body holds. */
  lemma NonObjectPropertiesRejected(mw: Middleware, codec: Codec, req: Request, m: map<string, Json>)
    requires Inspected(req)
    requires codec.parse(Remaining(req.body)) == Some(JObject(m))
    requires "additionalProperties" in m
    requires !m["additionalProperties"].JNull? && !m["additionalProperties"].JObject?
    ensures Invoke(mw, codec, req) == Reject(400, InvalidJson)
  {
  }

  /** With a table entry for the type, the first absent expected key decides
      the message, whatever follows it. */
  lemma FirstMissingKeyRejected(mw: Middleware, codec: Codec, req: Request,
                                m: map<string, Json>, props: map<string, Json>, k: nat)
    requires Inspected(req)
    requires codec.parse(Remaining(req.body)) == Some(JObject(m))
    requires "deviceTypeName" in m && m["deviceTypeName"] != JNull
    requires "additionalProperties" in m && m["additionalProperties"] == JObject(props)
    requires mw.rules.Some?
    requires var t := NodeText(m["deviceTypeName"], codec.indented);
             t in mw.rules.value &&
             k < |mw.rules.value[t]| && mw.rules.value[t][k].0 !in props &&
             forall i :: 0 <= i < k ==> mw.rules.value[t][i].0 in props
    ensures var t := NodeText(m["deviceTypeName"], codec.indented);
            Invoke(mw, codec, req) == Reject(400, MissingMessage(mw.rules.value[t][k].0, t))
  {
  }

  /** With a table entry for the type and every expected key present, the
      rewound request is handed on. */
  lemma AllKeysPresentForwarded(mw: Middleware, codec: Codec, req: Request,
                                m: map<string, Json>, props: map<string, Json>)
    requires Inspected(req)
    requires codec.parse(Remaining(req.body)) == Some(JObject(m))
    requires "deviceTypeName" in m && m["deviceTypeName"] != JNull
    requires "additionalProperties" in m && m["additionalProperties"] == JObject(props)
    requires mw.rules.Some?
    requires var t := NodeText(m["deviceTypeName"], codec.indented);
             t in mw.rules.value &&
             forall i :: 0 <= i < |mw.rules.value[t]| ==> mw.rules.value[t][i].0 in props
    ensures Invoke(mw, codec, req) == Forward(Rewound(req))
  {
  }

  /** Nothing to check: a missing type name, missing properties, or a table
      without the type all hand the rewound request on. */
  lemma NothingToCheckForwarded(mw: Middleware, codec: Codec, req: Request, m: map<string, Json>)
    requires Inspected(req)
    requires codec.parse(Remaining(req.body)) == Some(JObject(m))
    requires Member(m, "additionalProperties").None? || Member(m, "additionalProperties").value.JObject?
    requires || Member(m, "deviceTypeName").None?
             || Member(m, "additionalProperties").None?
             || (mw.rules.Some? && NodeText(m["deviceTypeName"], codec.indented) !in mw.rules.value)
    ensures Invoke(mw, codec, req) == Forward(Rewound(req))
  {
  }

  /** A body that is the JSON literal `null` parses to a `null` node and is handed on. */
  lemma NullBodyForwarded(mw: Middleware, codec: Codec, req: Request)
    requires Inspected(req)
    requires codec.parse(Remaining(req.body)) == Some(JNull)
    ensures Invoke(mw, codec, req) == Forward(Rewound(req))
  {
  }

  /** The first missing key depends on the key set of the properties only. */
  lemma {:induction false} FirstMissingSeesKeysOnly(expected: ExpectedFields, p: map<string, Json>, q: map<string, Json>)
    requires p.Keys == q.Keys
    ensures FirstMissing(expected, p) == FirstMissing(expected, q)
  {
    if |expected| > 0 && expected[0].0 in p {
      FirstMissingSeesKeysOnly(expected[1..], p, q);
    }
  }

  /** The check is presence-only: replacing the value of a present property
      by any other value, of any kind, never changes the verdict. */
  lemma PresenceOnly(rules: Option<RuleTable>, indented: Json -> string,
                     m: map<string, Json>, props: map<string, Json>, key: string, v: Json)
    requires "additionalProperties" in m && m["additionalProperties"] == JObject(props)
    requires key in props
    ensures Inspect(rules, indented, Some(JObject(m["additionalProperties" := JObject(props[key := v])])))
            == Inspect(rules, indented, Some(JObject(m)))
  {
    var props' := props[key := v];
    assert props'.Keys == props.Keys;
    var m' := m["additionalProperties" := JObject(props')];
    assert Member(m', "deviceTypeName") == Member(m, "deviceTypeName");
    var t := Member(m, "deviceTypeName");
    if t.Some? && rules.Some? && NodeText(t.value, indented) in rules.value {
      FirstMissingSeesKeysOnly(rules.value[NodeText(t.value, indented)], props', props);
    }
  }

  /** With the table left `null`, every body that names a type and carries a
      properties object reaches `TryGetValue` and ends in the catch-all. */
  lemma NullTableRejectsTypedBodies(mw: Middleware, codec: Codec, req: Request, m: map<string, Json>)
    requires mw.rules.None?
    requires Inspected(req)
    requires codec.parse(Remaining(req.body)) == Some(JObject(m))
    requires "deviceTypeName" in m && m["deviceTypeName"] != JNull
    requires "additionalProperties" in m && m["additionalProperties"].JObject?
    ensures Invoke(mw, codec, req) == Reject(400, InvalidJson)
  {
  }

  /** Hence the middleware as constructed rejects every device write whose
      body names a type and carries a properties object. */
  lemma ConstructedRejectsTypedBodies(document: Json, codec: Codec, req: Request, m: map<string, Json>)
    requires Construct(document).Success?
    requires Inspected(req)
    requires codec.parse(Remaining(req.body)) == Some(JObject(m))
    requires "deviceTypeName" in m && m["deviceTypeName"] != JNull
    requires "additionalProperties" in m && m["additionalProperties"].JObject?
    ensures Invoke(Construct(document).value, codec, req) == Reject(400, InvalidJson)
  {
    NullTableRejectsTypedBodies(Construct(document).value, codec, req, m);
  }

  /** The outcome never depends on the loaded catalog. */
  lemma CatalogIgnored(mw: Middleware, catalog: ValidationRules.Catalog, codec: Codec, req: Request)
    ensures Invoke(mw, codec, req) == Invoke(mw.(validationRules := catalog), codec, req)
  {
  }

  /** The gate on concrete paths: case is ignored, a longer segment is not a match. */
  lemma GateExamples(body: Body)
    ensures Inspected(Request("POST", "/api/device", body))
    ensures Inspected(Request("PUT", "/API/Device/7", body))
    ensures !Inspected(Request("POST", "/api/devices", body))
    ensures !Inspected(Request("GET", "/api/device/7", body))
    ensures !Inspected(Request("post", "/api/device", body))
    ensures !Inspected(Request("POST", "/api/people/1", body))
  {
    assert "/api/devices"[11] == 's';
    assert "/API/Device/7"[..11] == "/API/Device";
    assert "/api/people/1"[..11] == "/api/people";
    assert "/api/people"[5] == 'p' && DevicePrefix[5] == 'd';
    assert FoldAscii('p') != FoldAscii('d');
  }
}

=== FILE: validation_rule.dfy ===
/** The validation-rule catalog: its record types and how the middleware's
    constructor obtains it from the rules document. The middleware loads the
    catalog but never consults it when handling a request. */
module ValidationRules {
  import opened Wrappers
  import opened Json

  /** One field rule. `paramName` is `None` when the document omits it (the C#
      default `null`); `regex` is the raw JSON element stored under the key
      "regex", of any kind, and `None` is the default, undefined element. */
  datatype Rule = Rule(paramName: Option<string>, regex: Option<Json>)

  /** One rule group: device type, precondition field name and value, and an
      ordered list of field rules. A `null` list entry stays `None`. */
  datatype ValidationRule = ValidationRule(
    typeName: Option<string>,
    preRequestName: Option<string>,
    preRequestValue: Option<string>,
    rules: Option<seq<Option<Rule>>>)

  /** The catalog, in document order; a JSON `null` entry is kept as `None`. */
  type Catalog = seq<Option<ValidationRule>>

  /** Why loading the catalog throws. */
  datatype LoadError =
    | RootNotObject          // GetProperty on a non-object element
    | NoValidations          // GetProperty finds no "validations" member
    | Mismatch(key: string)  // the serializer meets a value of the wrong kind

  /** A string-typed property: absent or `null` gives `null`; a string is taken;
      any other kind makes the serializer throw. */
  function DecodeString(m: map<string, Json>, key: string): (r: Result<Option<string>, LoadError>)
    ensures key !in m ==> r == Success(None)
    ensures key in m && m[key].JNull? ==> r == Success(None)
    ensures key in m && m[key].JString? ==> r == Success(Some(m[key].s))
    ensures r.Failure? <==> key in m && !m[key].JNull? && !m[key].JString?
  {
    if key !in m then Success(None)
    else match m[key]
      case JNull => Success(None)
      case JString(s) => Success(Some(s))
      case _ => Failure(Mismatch(key))
  }

  /** A field rule from one array entry. Member names match case-sensitively. */
  function DecodeRule(j: Json): (r: Result<Option<Rule>, LoadError>)
    ensures j.JNull? ==> r == Success(None)
    ensures !j.JNull? && !j.JObject? ==> r == Failure(Mismatch("Rules"))
    ensures j.JObject? ==> (r.Success? <==> DecodeString(j.members, "ParamName").Success?)
    ensures j.JObject? && r.Success? ==> r.value.Some?
    ensures r.Success? && r.value.Some? ==>
              && j.JObject?
              && DecodeString(j.members, "ParamName") == Success(r.value.value.paramName)
              && (r.value.value.regex.Some? <==> "regex" in j.members)
              && ("regex" in j.members ==> r.value.value.regex == Some(j.members["regex"]))
  {
    match j
    case JNull => Success(None)
    case JObject(m) =>
      (match DecodeString(m, "ParamName")
       case Failure(e) => Failure(e)
       case Success(name) =>
         Success(Some(Rule(name, if "regex" in m then Some(m["regex"]) else None))))
    case _ => Failure(Mismatch("Rules"))
  }

  /** Every entry of a JSON array through `decode`, failing at the first entry that fails. */
  function DecodeEach<T>(items: seq<Json>, decode: Json -> Result<T, LoadError>): (r: Result<seq<T>, LoadError>)
    ensures r.Success? ==> |r.value| == |items|
    ensures r.Success? ==> forall i :: 0 <= i < |items| ==> decode(items[i]) == Success(r.value[i])
    ensures r.Failure? <==> exists i :: 0 <= i < |items| && decode(items[i]).Failure?
  {
    if |items| == 0 then Success([])
    else match decode(items[0])
      case Failure(e) => Failure(e)
      case Success(x) =>
        match DecodeEach(items[1..], decode)
        case Failure(e) =>
          Failure(e)
        case Success(xs) =>
          assert forall i :: 1 <= i < |items| ==> items[i] == items[1..][i - 1];
          Success([x] + xs)
  }

  /** The `Rules` property: absent keeps the initialiser's empty list, `null`
      gives `null`, an array is decoded entry by entry. */
  function DecodeRules(m: map<string, Json>): (r: Result<Option<seq<Option<Rule>>>, LoadError>)
    ensures "Rules" !in m ==> r == Success(Some([]))
    ensures "Rules" in m && m["Rules"].JNull? ==> r == Success(None)
    ensures "Rules" in m && m["Rules"].JArray? && r.Success? ==> r.value.Some?
    ensures "Rules" in m && !m["Rules"].JNull? && !m["Rules"].JArray? ==> r == Failure(Mismatch("Rules"))
    ensures r.Success? && r.value.Some? && "Rules" in m ==>
              && m["Rules"].JArray? && |r.value.value| == |m["Rules"].items|
              && forall i :: 0 <= i < |m["Rules"].items| ==> DecodeRule(m["Rules"].items[i]) == Success(r.value.value[i])
    ensures "Rules" in m && m["Rules"].JArray? ==>
              (r.Failure? <==> exists i :: 0 <= i < |m["Rules"].items| && DecodeRule(m["Rules"].items[i]).Failure?)
  {
    if "Rules" !in m then Success(Some([]))
    else match m["Rules"]
      case JNull => Success(None)
      case JArray(items) =>
        (match DecodeEach(items, DecodeRule)
         case Failure(e) => Failure(e)
         case Success(rs) => Success(Some(rs)))
      case _ => Failure(Mismatch("Rules"))
  }

  /** A rule group from one entry of the `validations` array. */
  function DecodeValidationRule(j: Json): (r: Result<Option<ValidationRule>, LoadError>)
    ensures j.JNull? ==> r == Success(None)
    ensures !j.JNull? && !j.JObject? ==> r == Failure(Mismatch("validations"))
    ensures j.JObject? && r.Success? ==> r.value.Some?
    ensures j.JObject? ==>
              (r.Success? <==> && DecodeString(j.members, "Type").Success?
                               && DecodeString(j.members, "PreRequestName").Success?
                               && DecodeString(j.members, "PreRequestValue").Success?
                               && DecodeRules(j.members).Success?)
    ensures r.Success? && r.value.Some? ==>
              && j.JObject?
              && DecodeString(j.members, "Type") == Success(r.value.value.typeName)
              && DecodeString(j.members, "PreRequestName") == Success(r.value.value.preRequestName)
              && DecodeString(j.members, "PreRequestValue") == Success(r.value.value.preRequestValue)
              && DecodeRules(j.members) == Success(r.value.value.rules)
  {
    match j
    case JNull => Success(None)
    case JObject(m) =>
      (match (DecodeString(m, "Type"), DecodeString(m, "PreRequestName"),
              DecodeString(m, "PreRequestValue"), DecodeRules(m))
       case (Success(t), Success(n), Success(v), Success(rs)) =>
         Success(Some(ValidationRule(t, n, v, rs)))
       case (Failure(e), _, _, _) => Failure(e)
       case (_, Failure(e), _, _) => Failure(e)
       case (_, _, Failure(e), _) => Failure(e)
       case (_, _, _, Failure(e)) => Failure(e))
    case _ => Failure(Mismatch("validations"))
  }

  /** The catalog from the parsed rules document: the `validations` member of
      the root, where a deserialised `null` falls back to an empty list. */
  function LoadCatalog(root: Json): (r: Result<Catalog, LoadError>)
    ensures !root.JObject? ==> r == Failure(RootNotObject)
    ensures root.JObject? && "validations" !in root.members ==> r == Failure(NoValidations)
    ensures root.JObject? && "validations" in root.members && root.members["validations"] == JNull
            ==> r == Success([])
    ensures r.Success? ==> root.JObject? && "validations" in root.members
    ensures r.Success? && root.members["validations"].JArray?
            ==> |r.value| == |root.members["validations"].items|
    ensures r.Success? && root.members["validations"].JArray?
            ==> forall i :: 0 <= i < |root.members["validations"].items| ==>
                  DecodeValidationRule(root.members["validations"].items[i]) == Success(r.value[i])
    ensures root.JObject? && "validations" in root.members && root.members["validations"].JArray?
            ==> (r.Failure? <==> exists i :: 0 <= i < |root.members["validations"].items| &&
                                   DecodeValidationRule(root.members["validations"].items[i]).Failure?)
    ensures root.JObject? && "validations" in root.members
            && !root.members["validations"].JNull? && !root.members["validations"].JArray?
            ==> r == Failure(Mismatch("validations"))
  {
    match root
    case JObject(m) =>
      if "validations" !in m then Failure(NoValidations)
      else
        (match m["validations"]
         case JNull => Success([])
         case JArray(items) => DecodeEach(items, DecodeValidationRule)
         case _ => Failure(Mismatch("validations")))
    case _ => Failure(RootNotObject)
  }

  /** A rule group object without a "Rules" member decodes with an empty rule list. */
  lemma RulesDefaultToEmpty(m: map<string, Json>)
    requires "Rules" !in m
    requires DecodeValidationRule(JObject(m)).Success?
    ensures DecodeValidationRule(JObject(m)).value.Some?
    ensures DecodeValidationRule(JObject(m)).value.value.rules == Some([])
  {
  }

  /** The "regex" member is stored as it is, whatever its JSON kind. */
  lemma PatternKindUnconstrained(name: string, pattern: Json)
    ensures DecodeRule(JObject(map["ParamName" := JString(name), "regex" := pattern]))
            == Success(Some(Rule(Some(name), Some(pattern))))
  {
    var m := map["ParamName" := JString(name), "regex" := pattern];
    assert DecodeString(m, "ParamName") == Success(Some(name));
  }

  /** A rule group decodes with its field rules in document order. */
  lemma RuleOrderKept(m: map<string, Json>, items: seq<Json>)
    requires "Rules" in m && m["Rules"] == JArray(items)
    requires DecodeValidationRule(JObject(m)).Success?
    ensures DecodeValidationRule(JObject(m)).value.Some?
    ensures var rs := DecodeValidationRule(JObject(m)).value.value.rules;
            rs.Some? && |rs.value| == |items| &&
            forall i :: 0 <= i < |items| ==> DecodeRule(items[i]) == Success(rs.value[i])
  {
    var each := DecodeEach(items, DecodeRule);
    assert each.Success?;
  }
}

=== FILE: wrappers.dfy ===
/** Failure-compatible wrappers shared by every module of the model. */
module Wrappers {

  /** A value that may be absent; `None` stands for a C# `null`. */
  datatype Option<+T> = None | Some(value: T) {

    /** Returns the wrapped value, or `default` when absent (the `??` operator). */
    function GetOr(default: T): T {
      match this
      case Some(v) => v
      case None => default
    }
  }

  /** Either a value or the reason it could not be produced. */
  datatype Result<+T, +E> = Success(value: T) | Failure(error: E)
}
